=== FILE: README.md ===
# Carbon: gitignore expansion, data-table selection, menu focus and placement

This project models, in Dafny, three pieces of sequential logic from the
Carbon design system repository, and proves properties of them.

- **Nested `.gitignore` expansion** (`config/eslint/gitignore.cjs`). It covers four things:
  - `normalizeGitignoreLine` classifies a raw line as blank/comment or as a pattern with a negation flag. It also undoes the `\#` / `\!` escapes.
  - `parseNestedGitignore` rewrites every pattern line of a nested `.gitignore` into a root-relative glob under the file's directory.
  - `normalizePath` swaps the platform separator for `/`.
  - `findGitignoreFiles` is the stack-driven search for `.gitignore` files. It runs over an in-memory directory tree.

  Node's `path.posix.join` and `path.posix.normalize` are modelled as Node documents them (module `PosixPath`). JavaScript `trim`, `split` and `join` live in module `Strings`.
- **Data-table selection and expansion** (`DataTable.tsx`). The state is the row ids plus one flag record per row. Each handler is a pure transition:
  - select all
  - select one row, in radio or checkbox mode
  - cancel
  - expand one row
  - expand all

  The select-all checkbox, the batch-action bar and the expand-all header are derived values.
- **Menu keyboard focus and placement** (`Menu.tsx`). It covers:
  - the wrap-around index of `focusItem` and the close decision of `handleKeyDown`;
  - `getPosition`, `fitValue` with its final clamp to `spacing` (8), and `calculatePosition`;
  - the virtual reference rectangle.

Generic helpers sit in modules `Options` (`null`/`undefined` as a value, `map`) and `Seqs` (`filter`, subsequences).

## Model

| member | source | states |
|---|---|---|
| GitignoreLine.NormalizeGitignoreLine | config/eslint/gitignore.cjs:14-26 | a line is dropped exactly when its trimmed text is empty or starts with `#`; a kept line is negated exactly when its trimmed text starts with `!` |
| GitignoreLine.BodyIsTrimmedSuffix | config/eslint/gitignore.cjs:18-23 | the pattern body is the trimmed line minus at most its first character (the `!` or the escaping backslash) |
| GitignoreLine.RenderRoundTrip | config/eslint/gitignore.cjs:14-26 | every record the classifier can produce is read back unchanged from its written form (`!` for negation, `\` before a literal leading `#` or `!`) |
| GitignoreLine.NormalizedIsRepresentable | config/eslint/gitignore.cjs:14-26 | everything the classifier produces has no trailing whitespace, and a non-negated body is non-empty and not itself escaped, so the round trip applies |
| GitignoreLine.NormalizeRenderStable | config/eslint/gitignore.cjs:14-26 | classifying, writing back and classifying again gives the first result |
| GitignoreLine.BlankAndCommentExamples | config/__tests__/eslint-config-gitignore-test.js:87-91 | `''`, `'   '` and `'# comment'` are dropped |
| GitignoreLine.NegationExample | config/__tests__/eslint-config-gitignore-test.js:94-97 | `!dist/` gives body `dist/`, negated |
| GitignoreLine.EscapeExample | config/__tests__/eslint-config-gitignore-test.js:98-105 | `\#literal` and `\!literal` give bodies `#literal` and `!literal`, neither negated |
| NestedGitignore.NormalizePath | config/eslint/gitignore.cjs:8 | same length; every separator character becomes `/` and every other character is kept |
| NestedGitignore.NormalizePathIdempotent | config/eslint/gitignore.cjs:8 | normalizing twice is normalizing once |
| NestedGitignore.NormalizePathRemovesSeparator | config/eslint/gitignore.cjs:8 | a separator other than `/` no longer occurs in the result |
| NestedGitignore.SplitLines | config/eslint/gitignore.cjs:75 | splitting on `\r?\n` gives as many pieces as splitting on `\n`, and each piece classifies exactly as the plain piece does |
| NestedGitignore.CrlfSameAsLf | config/eslint/gitignore.cjs:75-79 | a file written with CRLF line ends gives the same patterns as with LF line ends |
| NestedGitignore.NormalizedLinesRepresentable | config/eslint/gitignore.cjs:78-83 | every surviving pattern line comes from some raw line and is a representable record |
| NestedGitignore.ParseNestedGitignore | config/eslint/gitignore.cjs:70-99 | the root's own file gives `[]`; otherwise exactly one pattern per pattern line, in line order, each the expansion of that line under the normalized directory prefix |
| NestedGitignore.AnchorIgnored | config/eslint/gitignore.cjs:85-86 | `/x` and `x` expand alike: the anchor does not restrict the depth |
| NestedGitignore.ExpandPattern | config/eslint/gitignore.cjs:85-95 | never empty; a negated line's pattern starts with `!` and has more after it |
| NestedGitignore.ExpandName | config/eslint/gitignore.cjs:88-92 | a slash-free plain name `u` under a plain prefix `p` becomes `p/**/u`, with a leading `!` when negated |
| NestedGitignore.ExpandPath | config/eslint/gitignore.cjs:88-91 | a plain body with an inner `/` is joined straight onto the prefix as `p/u` |
| NestedGitignore.ExpandDir | config/eslint/gitignore.cjs:89-93 | a directory body `q/` becomes `p/q/**` |
| NestedGitignore.ExpandMarkers | config/eslint/gitignore.cjs:93-95 | a negated line's pattern starts with `!`, and a directory line's pattern ends with `/**`, for every body and prefix |
| NestedGitignore.NegationPreserved | config/eslint/gitignore.cjs:95 | a pattern starts with `!` exactly when its line was negated (for a plain prefix and a body without `..`) |
| NestedGitignore.BangDirectoryNegates | config/eslint/gitignore.cjs:88-95 | under a directory whose name starts with `!`, a plain name that is not negated still gives a pattern starting with `!` |
| NestedGitignore.AnchoredFixture | config/__tests__/eslint-config-gitignore-test.js:54-73 | the file `/x`, `y`, `d/` in directory `p` gives `p/**/x`, `p/**/y`, `p/d/**` in that order, for any plain `p` and simple names |
| NestedGitignore.RootFixture | config/__tests__/eslint-config-gitignore-test.js:75-83 | a root `.gitignore` contributes no patterns, whatever it contains |
| Strings.Trim | config/eslint/gitignore.cjs:15 | `trim` leaves no whitespace at either end and never lengthens the text |
| Strings.TrimIsSlice | config/eslint/gitignore.cjs:15 | the trimmed text is the slice after the leading whitespace, and only whitespace follows it |
| Strings.TrimBlank | config/eslint/gitignore.cjs:15 | trimming leaves nothing exactly when the line is all whitespace |
| PosixPath.Normalize | config/eslint/gitignore.cjs:90-92 | `path.posix.normalize` never returns the empty string |
| PosixPath.JoinPaths | config/eslint/gitignore.cjs:90-92 | `path.posix.join` never returns the empty string |
| PosixPath.NormalizeEnds | config/eslint/gitignore.cjs:90-92 | `path.posix.normalize` keeps a path absolute exactly when it was, and keeps a trailing `/` |
| PosixPath.NormalizeIdempotent | config/eslint/gitignore.cjs:90-92 | normalizing a normalized path changes nothing |
| PosixPath.JoinPathsNormalized | config/eslint/gitignore.cjs:90-92 | what `path.posix.join` returns is already normal |
| PosixPath.JoinPathsPlain | config/eslint/gitignore.cjs:91 | joining two plain paths is concatenation with one `/` |
| PosixPath.JoinPathsPlainGlob | config/eslint/gitignore.cjs:92 | joining a plain prefix, `**` and a plain path gives `p/**/u` |
| GitignoreWalk.CurrentDirEmpty | config/eslint/gitignore.cjs:39-41 | a popped directory is held as the empty string only when it is the root and the root was given as `''` |
| GitignoreWalk.ReadDirectory | config/eslint/gitignore.cjs:45-60 | one directory read appends exactly the reported `.gitignore` paths and pushes exactly the traversed subdirectories, in entry order |
| GitignoreWalk.PopStep | config/eslint/gitignore.cjs:38-60 | replacing the popped directory by its subdirectories keeps the total still to be reported, and strictly shrinks the stack's size |
| GitignoreWalk.FindGitignoreFiles | config/eslint/gitignore.cjs:32-64 | an empty root gives `[]`; otherwise the loop reports exactly the paths of the depth-first walk, in its order |
| GitignoreWalk.WalkSound | config/eslint/gitignore.cjs:45-59 | every reported path lies below the starting directory and reaches a `.gitignore` through traversed directories |
| GitignoreWalk.WalkComplete | config/eslint/gitignore.cjs:45-59 | every path that reaches a `.gitignore` through traversed directories is reported |
| GitignoreWalk.FoundIffReaches | config/eslint/gitignore.cjs:32-64 | a path is found exactly when it reaches a `.gitignore` |
| GitignoreWalk.ReachesShape | config/eslint/gitignore.cjs:46-57 | every found path ends with `.gitignore` and passes through no `.git`, `node_modules` or `.gitignore` directory |
| GitignoreWalk.SkipsToolDirectories | config/__tests__/eslint-config-gitignore-test.js:121-150 | of `.gitignore` files at the root, in `src`, under `node_modules` and under `.git`, only the first two are found |
| GitignoreWalk.SkipsSymbolicLinks | config/__tests__/eslint-config-gitignore-test.js:152-177 | a link to a directory is not followed; the directory's own `.gitignore` is found once |
| DataTable.SelectedRows | packages/react/src/components/DataTable/DataTable.tsx:612-619 | a subsequence of the row ids (order kept) holding exactly the listed rows that are selected and not disabled |
| DataTable.FilteredRowIds | packages/react/src/components/DataTable/DataTable.tsx:624-638 | a subsequence of the row ids; every row when no filter value is set |
| DataTable.FilterTestIsExact | packages/react/src/components/DataTable/DataTable.tsx:654-655 | for a subsequence, "same length as the row ids" holds exactly when nothing is filtered out |
| DataTable.SelectAllProps | packages/react/src/components/DataTable/DataTable.tsx:535-539 | the select-all box is never both checked and indeterminate |
| DataTable.SelectAllPropsMeaning | packages/react/src/components/DataTable/DataTable.tsx:535-539 | checked iff there are rows and all are selected; indeterminate iff some row is selected and some is not |
| DataTable.GetBatchActionProps | packages/react/src/components/DataTable/DataTable.tsx:564-576 | the bar shows iff the flag is set and some listed row is selected; selected count never exceeds total count |
| DataTable.UpdatedSelection | packages/react/src/components/DataTable/DataTable.tsx:649-671 | the new records are keyed by exactly the listed row ids, and every listed row that is enabled and not filtered out takes the new `isSelected` value |
| DataTable.UpdatedSelectionSpares | packages/react/src/components/DataTable/DataTable.tsx:658-664 | each listed row's record is the old one with `isSelected` set when it is enabled and not filtered out, and the old record unchanged otherwise |
| DataTable.EligibleMeansShown | packages/react/src/components/DataTable/DataTable.tsx:624-664 | the length test on the filtered ids picks exactly the enabled rows that the filter keeps |
| DataTable.Cancel | packages/react/src/components/DataTable/DataTable.tsx:677-686 | the bar flag is cleared, the row ids and expand-all flag kept, well-formedness kept |
| DataTable.CancelClearsSelection | packages/react/src/components/DataTable/DataTable.tsx:677-686 | afterwards a row stays selected only when a filter hides it, and the bar is not shown |
| DataTable.SelectAllTargetIff | packages/react/src/components/DataTable/DataTable.tsx:690-696 | select-all selects exactly when no enabled row is selected (`selectedRows` is empty) |
| DataTable.SelectAll | packages/react/src/components/DataTable/DataTable.tsx:690-703 | the bar flag becomes the value written; row ids and expand-all flag kept; well-formedness kept |
| DataTable.SelectAllFiltered | packages/react/src/components/DataTable/DataTable.tsx:690-703 | with the filtered ids, select-all sets the target value on exactly the enabled rows the filter shows and leaves every other record alone |
| DataTable.SelectAllOutcome | packages/react/src/components/DataTable/DataTable.tsx:690-703 | without a filter, select-all from an empty selection selects every enabled row, and otherwise clears the selection |
| DataTable.SelectAllChecksBox | packages/react/src/components/DataTable/DataTable.tsx:690-703 | with no disabled rows and no filter, select-all from an empty selection checks the box and shows the bar; otherwise the box ends neither checked nor indeterminate |
| DataTable.SelectRow | packages/react/src/components/DataTable/DataTable.tsx:708-752 | the target's `isSelected` flips; the row ids, expand-all flag and record keys are kept |
| DataTable.SelectRowKeepsOtherFlags | packages/react/src/components/DataTable/DataTable.tsx:708-752 | only `isSelected` changes on any row, and well-formedness is kept |
| DataTable.RadioSelectsAtMostOne | packages/react/src/components/DataTable/DataTable.tsx:711-729 | in radio mode every row but the target ends deselected, the target's flag flips, so at most one row is selected, and the bar flag is cleared |
| DataTable.CheckboxTouchesOnlyTarget | packages/react/src/components/DataTable/DataTable.tsx:740-750 | in checkbox mode every other row keeps its record |
| DataTable.CheckboxPredictionExact | packages/react/src/components/DataTable/DataTable.tsx:731-745 | the predicted count is the real one: the bar flag is set iff some row carries `isSelected` afterwards, and always when selecting |
| DataTable.ExpandRow | packages/react/src/components/DataTable/DataTable.tsx:759-775 | only the target changes, and only its `isExpanded`, which flips; the bar flag is kept; expand-all stays set only when the target was collapsed |
| DataTable.ExpandRowTwice | packages/react/src/components/DataTable/DataTable.tsx:759-775 | toggling a row twice restores every record and leaves expand-all clear |
| DataTable.CollapseRowClearsHeader | packages/react/src/components/DataTable/DataTable.tsx:759-775 | collapsing a listed row makes the expand-all header read collapsed |
| DataTable.ExpandAll | packages/react/src/components/DataTable/DataTable.tsx:780-798 | expand-all flips its flag and gives every listed row the new value, keeping the rest of its record; the records are keyed by exactly the row ids; the bar flag is kept |
| DataTable.ExpandHeaderExpanded | packages/react/src/components/DataTable/DataTable.tsx:425-427 | the header reads expanded for an empty table, and collapsed when the flag is clear and some listed row is collapsed |
| DataTable.ExpandAllHeader | packages/react/src/components/DataTable/DataTable.tsx:425-427 | after expand-all the header reads expanded unless it just collapsed a non-empty table |
| DataTable.ExpandAllKeepsSelection | packages/react/src/components/DataTable/DataTable.tsx:780-798 | expand-all does not change which rows are selected |
| Menu.IndexToFocus | packages/react/src/components/Menu/Menu.tsx:352-377 | with no focused item the first is chosen; with items the index is in range |
| Menu.ArrowDownWraps | packages/react/src/components/Menu/Menu.tsx:365-377 | ArrowDown goes to the next index, from the last back to 0 |
| Menu.ArrowUpWraps | packages/react/src/components/Menu/Menu.tsx:362-373 | ArrowUp goes to the previous index, from 0 round to the last |
| Menu.ArrowsInverse | packages/react/src/components/Menu/Menu.tsx:362-377 | ArrowUp undoes ArrowDown and the other way round |
| Menu.OtherKeysStay | packages/react/src/components/Menu/Menu.tsx:358-368 | any other key keeps a focused item where it is |
| Menu.FocusItemAsWritten | packages/react/src/components/Menu/Menu.tsx:352-383 | throws exactly when there is no focusable item; otherwise focus moves to `IndexToFocus` when that differs from the current index and stays put when it is the same |
| Menu.FocusItem | packages/react/src/components/Menu/Menu.tsx:352-383 | never throws; moves focus only to the index `IndexToFocus` picks, which is in range and differs from the current one; keeps focus exactly when there is no item or the index is unchanged |
| Menu.FocusItemAgrees | packages/react/src/components/Menu/Menu.tsx:507-513 | on a menu with focusable items the guarded version is the written one |
| Menu.HandleKeyDownAsWritten | packages/react/src/components/Menu/Menu.tsx:337-350 | the handler as written: closes iff `onClose` exists and the key is Escape, or ArrowLeft in a submenu; every other key goes to the unguarded `focusItem` |
| Menu.EmptyMenuKeyPressThrows | packages/react/src/components/Menu/Menu.tsx:337-383 | in a menu without focusable items, every key press that does not close the menu throws |
| Menu.HandleKeyDown | packages/react/src/components/Menu/Menu.tsx:337-350 | the corrected handler: closes under the same condition; otherwise focus moves as the guarded `focusItem` says, and it never throws |
| Menu.HandleKeyDownAgrees | packages/react/src/components/Menu/Menu.tsx:337-350 | on a menu with focusable items the corrected handler is the written one, for every key |
| Menu.RootArrowLeftKeepsFocus | packages/react/src/components/Menu/Menu.tsx:341-349 | in the root menu ArrowLeft never closes and leaves a focused item in place |
| Menu.GetPosition | packages/react/src/components/Menu/Menu.tsx:480-492 | a number `x` gives `[x, x]`; a list gives its present entries when exactly two are present, and nothing otherwise |
| Menu.PropsHaveRange | packages/react/src/components/Menu/Menu.tsx:480-492 | every value of the `x` / `y` props has a range, edges in the order given |
| Menu.Axes | packages/react/src/components/Menu/Menu.tsx:395-433 | the axes span the window; the vertical axis is anchored below a root menu's range and beside a submenu's, with a 4px lift for a submenu; a `top`/`bottom` alignment with an activator width caps the horizontal size at the smaller of the two widths; the horizontal anchor moves only for a `-end` alignment whose anchor is at least 87 and whose activator is narrower than the menu |
| Menu.AxesAlignmentOnlyMovesX | packages/react/src/components/Menu/Menu.tsx:416-433 | the alignment never changes the vertical axis, and without an activator width it changes nothing |
| Menu.BestOption | packages/react/src/components/Menu/Menu.tsx:437-470 | the result is one of the three candidates, and the towards-max one whenever it fits |
| Menu.BestOptionCases | packages/react/src/components/Menu/Menu.tsx:437-470 | the towards-max candidate wins when it fits (or is forced for a top-aligned vertical axis), else the reversed one, else flush with the far edge |
| Menu.AtLeastSpacing | packages/react/src/components/Menu/Menu.tsx:473 | the result is the larger of the value and 8 |
| Menu.FitValue | packages/react/src/components/Menu/Menu.tsx:391-474 | a value exists exactly when the menu is mounted, and is never below 8 |
| Menu.RootMenuOpensBelow | packages/react/src/components/Menu/Menu.tsx:391-474 | a root menu that fits below its range opens at the range's lower edge (at least 8) |
| Menu.CalculatePosition | packages/react/src/components/Menu/Menu.tsx:494-505 | `[-1, -1]` exactly when a range is missing or the menu is not mounted; otherwise both coordinates are at least 8 |
| Menu.PropsPositionFitted | packages/react/src/components/Menu/Menu.tsx:494-505 | for any `x` / `y` props a mounted menu gets both coordinates at least 8 |
| Menu.VirtualRect | packages/react/src/components/Menu/Menu.tsx:213-225 | left and top are the smaller edges, width and height are non-negative and reach the larger edges |
| Menu.VirtualRectSymmetric | packages/react/src/components/Menu/Menu.tsx:213-225 | the order of the edges does not matter; a point gives an empty box |

## Code and documentation disagree

In git's own pattern format (gitignore(5), section "PATTERN FORMAT"), a pattern with a separator at its start or in its middle is relative to the directory of its `.gitignore`, so `/x` matches only directly inside that directory. The test title at `config/__tests__/eslint-config-gitignore-test.js:54` also says anchored patterns are "relative to the gitignore directory", but the test expects `packages/ui/**/one.txt`. The code strips the anchor and expands the name exactly like an unanchored one, `dir/**/x` (`config/eslint/gitignore.cjs:85-92`), and the repository's tests expect that. The model follows the code. `NestedGitignore.AnchorIgnored` states it for every line.

## Left out

- File-system reads (`readdirSync`, `readFileSync`) are left out. The tree, the file contents and the directory relative to the root are inputs, and `path.relative` / `dirname` are not modelled.
- The platform separator `sep` is a parameter of `NormalizePath`.
- `findGitignoreFiles` returns paths as lists of names below the root; joining them onto the root is `CurrentDir`. The order of a directory's entries is whatever the tree lists.
- GitignoreWalk.SkipsToolDirectories and GitignoreWalk.SkipsSymbolicLinks state the tests for any ordinary directory names. The tests only check membership; the lemmas give the exact result.
- NegationPreserved: assumes the body has no `..` segment and the directory prefix does not start with `!`. `path.posix.join` lets `a/../!x` climb out of the prefix, which would expose a `!` of the body. A directory named `!x` makes every plain pattern under it start with `!`, so glob consumers read it as a negation; `BangDirectoryNegates` states this case.
- The first `parseNestedGitignore` test (nine lines in `a/b`) is covered line by line by `ExpandName`, `ExpandPath`, `ExpandDir`, `ExpandMarkers` and the escape examples, not as one literal file.
- DataTable: sorting (`getNextSortState`), `getDerivedStateFromProps`, cells and headers are left out. `filterRows` is a parameter required to return a subsequence of the row ids.
- DataTable.ExpandHeaderExpanded: requires every listed row to have a record when the expand-all flag is clear. The source's `every` stops at the first collapsed row, so it does not always read every record.
- DataTable.SelectedRows, DataTable.SelectAllProps, DataTable.GetBatchActionProps and DataTable.ExpandRow: require a record for every listed row (for `ExpandRow`, for the target). The source throws without one, but every state it handles comes from `normalize`, which builds a record for every row id.
- DataTable: the bulk handlers take `filteredRowIds` as a parameter. The source computes it from the rendered state, not from the `prev` state the updater receives, so the two may differ. `EligibleMeansShown` and `SelectAllFiltered` state the usual case, where it is `FilteredRowIds` of the same state.
- DataTable.GetBatchActionProps: the caller's own props, spread in by the source, are left out.
- `DataTable.SelectRow`: requires the target row to have a record. The source reads its `isSelected` and throws otherwise. Checkbox mode also needs every listed row.
- Menu: DOM reads are parameters, including the menu's size, the window size, the activator width and the focused item's index. Side effects are left out: focusing, `preventDefault`, style writes and the `transform` reset in `fitValue`.
- PosixPath.Normalize and PosixPath.JoinPaths: their own contracts only say the result is never empty. What happens at either end, idempotence and joins of plain paths are the lemmas `NormalizeEnds`, `NormalizeIdempotent`, `JoinPathsNormalized`, `JoinPathsPlain` and `JoinPathsPlainGlob`.
- Pixel values are integers, not floating-point numbers.
- `menuAlignment` is any string; an absent one matches none of the named alignments.
- `handleBlur`, `handleOpen`, the floating-ui positioning and the popover API are left out. They are event wiring around the DOM.

## Findings

| source | as written | input that shows it | evidently intended | confidence | as-written member | corrected member |
|---|---|---|---|---|---|---|
| packages/react/src/components/Menu/Menu.tsx:352-383 | `handleKeyDown` calls `focusItem` for any other key without checking for items. With no focusable item, the index 0 differs from -1, so `focusableItems[0].ref` is read from `undefined` | a key press (e.g. ArrowDown) in a menu whose items are all disabled | do nothing when there is no focusable item, as the opening effect does (`focusableItems.length > 0`, lines 507-513) | medium, not executed | Menu.HandleKeyDownAsWritten | Menu.HandleKeyDown |

=== FILE: datatable.dfy ===
/**
 * The selection and expansion state of a data table. The state lists row ids
 * in display order and keeps one record of flags per id. Each handler is a
 * pure `prev -> next` transition over that state. The select-all checkbox,
 * the batch-action bar and the expand-all header read derived values.
 */
module DataTable {
  import opened Options
  import opened Seqs

  type RowId = string

  /** The flags of a row that the handlers read and write. Cells are not modelled. */
  datatype Row = Row(isSelected: bool, isExpanded: bool, disabled: bool)

  /** `{ ...undefined }`: spreading a row record that is not there gives no flags at all. */
  const EmptyRow := Row(false, false, false)

  datatype TableState = TableState(
    rowIds: seq<RowId>,
    rowsById: map<RowId, Row>,
    isExpandedAll: bool,
    shouldShowBatchActions: bool,
    filterInputValue: Option<string>)

  /** Every listed row has a record. Reading a flag of a missing record throws. */
  predicate RowsPresent(st: TableState) {
    forall id :: id in st.rowIds ==> id in st.rowsById
  }

  /** The shape the table builds its state in: ids listed once, and one record per listed id and no other. */
  predicate Wf(st: TableState) {
    && RowsPresent(st)
    && (forall id :: id in st.rowsById ==> id in st.rowIds)
    && Distinct(st.rowIds)
  }

  /** `{ ...rowsById[id] }`. */
  function Lookup(rows: map<RowId, Row>, id: RowId): Row {
    if id in rows then rows[id] else EmptyRow
  }

  /** A row that counts as selected: selected and not disabled. */
  predicate Selected(row: Row) {
    row.isSelected && !row.disabled
  }

  function SelectedIn(rows: map<RowId, Row>): RowId -> bool {
    id => id in rows && Selected(rows[id])
  }

  /** Rows with the `isSelected` flag, disabled or not (what the checkbox handler counts). */
  function MarkedIn(rows: map<RowId, Row>): RowId -> bool {
    id => id in rows && rows[id].isSelected
  }

  function EnabledIn(rows: map<RowId, Row>): RowId -> bool {
    id => id in rows && !rows[id].disabled
  }

  // ---------------------------------------------------------------- derived values

  /** `selectedRows`: the listed ids whose rows are selected and not disabled, in list order. */
  function SelectedRows(st: TableState): (r: seq<RowId>)
    requires RowsPresent(st)
    ensures IsSubsequence(r, st.rowIds)
    ensures forall id :: id in r <==> id in st.rowIds && Selected(st.rowsById[id])
  {
    FilterSubsequence(st.rowIds, SelectedIn(st.rowsById));
    FilterMembers(st.rowIds, SelectedIn(st.rowsById));
    Filter(st.rowIds, SelectedIn(st.rowsById))
  }

  /**
   * `getFilteredRowIds`: with a filter value, what `filterRows` keeps; without
   * one, every row. `filterRows` is a parameter, required to return a
   * subsequence of the ids it is given.
   */
  function FilteredRowIds(st: TableState, filterRows: (seq<RowId>, string) -> seq<RowId>): (r: seq<RowId>)
    requires forall ids, v :: IsSubsequence(filterRows(ids, v), ids)
    ensures IsSubsequence(r, st.rowIds)
    ensures st.filterInputValue.None? ==> r == st.rowIds
  {
    match st.filterInputValue
    case Some(v) => filterRows(st.rowIds, v)
    case None => SubsequenceOfSelf(st.rowIds); st.rowIds
  }

  /**
   * The bulk update decides "is a filter active" by comparing lengths. For a
   * subsequence of the row ids that test is exact: equal length means every
   * row is kept.
   */
  lemma FilterTestIsExact(st: TableState, filteredRowIds: seq<RowId>)
    requires IsSubsequence(filteredRowIds, st.rowIds)
    ensures |st.rowIds| == |filteredRowIds| <==> filteredRowIds == st.rowIds
  {
    if |st.rowIds| == |filteredRowIds| {
      SubsequenceFullLength(filteredRowIds, st.rowIds);
    }
  }

  /** The select-all checkbox: checked, indeterminate, or neither. */
  datatype SelectAllControl = SelectAllControl(checked: bool, indeterminate: bool)

  /** The select-all part of `getSelectionProps`. */
  function SelectAllProps(st: TableState): (r: SelectAllControl)
    requires RowsPresent(st)
    ensures !(r.checked && r.indeterminate)
  {
    var rowCount := |st.rowIds|;
    var selectedRowCount := |SelectedRows(st)|;
    SelectAllControl(
      rowCount > 0 && selectedRowCount == rowCount,
      rowCount > 0 && selectedRowCount > 0 && selectedRowCount != rowCount)
  }

  /** Checked means every row is selected; indeterminate means some are and some are not. */
  lemma SelectAllPropsMeaning(st: TableState)
    requires RowsPresent(st)
    ensures var r, ids, rows := SelectAllProps(st), st.rowIds, st.rowsById;
      && (r.checked <==> |ids| > 0 && forall i :: 0 <= i < |ids| ==> Selected(rows[ids[i]]))
      && (r.indeterminate <==>
            (exists i :: 0 <= i < |ids| && Selected(rows[ids[i]]))
            && (exists i :: 0 <= i < |ids| && !Selected(rows[ids[i]])))
  {
    var ids, rows := st.rowIds, st.rowsById;
    FilterKeepsAll(ids, SelectedIn(rows));
    if exists i :: 0 <= i < |ids| && Selected(rows[ids[i]]) {
      var i :| 0 <= i < |ids| && Selected(rows[ids[i]]);
      assert ids[i] in SelectedRows(st);
    }
    if SelectedRows(st) != [] {
      var id := SelectedRows(st)[0];
      assert id in SelectedRows(st);
    }
  }

  /** What `getBatchActionProps` reports, apart from the caller's own props. */
  datatype BatchActionProps = BatchActionProps(shouldShowBatchActions: bool, totalSelected: nat, totalCount: nat)

  /** `getBatchActionProps`: the bar shows only while the flag is set and a row is selected. */
  function GetBatchActionProps(st: TableState): (r: BatchActionProps)
    requires RowsPresent(st)
    ensures r.shouldShowBatchActions <==>
      st.shouldShowBatchActions && exists id :: id in st.rowIds && Selected(st.rowsById[id])
    ensures r.totalSelected <= r.totalCount == |st.rowIds|
  {
    var totalSelected := |SelectedRows(st)|;
    assert totalSelected > 0 ==> SelectedRows(st)[0] in SelectedRows(st);
    BatchActionProps(st.shouldShowBatchActions && totalSelected > 0, totalSelected, |st.rowIds|)
  }

  /**
   * `getExpandHeaderProps().isExpanded`. The `||` short-circuits, so row
   * records are read only when the flag is clear. An empty table reads
   * expanded (`every` of nothing holds); one collapsed row reads collapsed
   * unless the flag is set.
   */
  predicate ExpandHeaderExpanded(st: TableState)
    requires st.isExpandedAll || RowsPresent(st)
    ensures st.rowIds == [] ==> ExpandHeaderExpanded(st)
    ensures !st.isExpandedAll && (exists i :: 0 <= i < |st.rowIds| && !st.rowsById[st.rowIds[i]].isExpanded)
      ==> !ExpandHeaderExpanded(st)
  {
    st.isExpandedAll || forall id :: id in st.rowIds ==> st.rowsById[id].isExpanded
  }

  // ---------------------------------------------------------------- transitions

  /** Whether a bulk update touches row `id`: not disabled, and kept by the filter when one is active. */
  predicate Eligible(st: TableState, filteredRowIds: seq<RowId>, id: RowId) {
    !Lookup(st.rowsById, id).disabled && (|st.rowIds| == |filteredRowIds| || id in filteredRowIds)
  }

  /**
   * `getUpdatedSelectionState`: a fresh record for every listed row, with
   * `isSelected` overwritten on the eligible ones.
   */
  function UpdatedSelection(st: TableState, isSelected: bool, filteredRowIds: seq<RowId>): (r: map<RowId, Row>)
    ensures forall id :: id in r <==> id in st.rowIds
    ensures forall id :: id in st.rowIds && Eligible(st, filteredRowIds, id) ==> r[id].isSelected == isSelected
  {
    map id | id in st.rowIds ::
      var row := Lookup(st.rowsById, id);
      if Eligible(st, filteredRowIds, id) then row.(isSelected := isSelected) else row
  }

  /**
   * Bulk selection writes the new value to every eligible row, and never
   * changes a disabled row, a filtered-out row, or any flag but `isSelected`.
   */
  lemma UpdatedSelectionSpares(st: TableState, isSelected: bool, filteredRowIds: seq<RowId>, id: RowId)
    requires id in st.rowIds
    ensures var before, after := Lookup(st.rowsById, id), UpdatedSelection(st, isSelected, filteredRowIds)[id];
      && after == (if Eligible(st, filteredRowIds, id) then before.(isSelected := isSelected) else before)
      && after.disabled == before.disabled
      && after.isExpanded == before.isExpanded
      && (before.disabled ==> after == before)
      && (|st.rowIds| != |filteredRowIds| && id !in filteredRowIds ==> after == before)
  {
  }

  /**
   * With the ids the filter keeps (`FilteredRowIds`), the length test is
   * exact: of the listed rows, a bulk update touches exactly the enabled ones
   * the filter shows.
   */
  lemma EligibleMeansShown(st: TableState, filterRows: (seq<RowId>, string) -> seq<RowId>, id: RowId)
    requires forall ids, v :: IsSubsequence(filterRows(ids, v), ids)
    requires id in st.rowIds
    ensures Eligible(st, FilteredRowIds(st, filterRows), id) <==>
      !Lookup(st.rowsById, id).disabled && id in FilteredRowIds(st, filterRows)
  {
    FilterTestIsExact(st, FilteredRowIds(st, filterRows));
  }

  /** `handleOnCancel`: hide the batch actions and deselect every eligible row. */
  function Cancel(st: TableState, filteredRowIds: seq<RowId>): (r: TableState)
    ensures r.rowIds == st.rowIds && r.isExpandedAll == st.isExpandedAll
    ensures !r.shouldShowBatchActions
    ensures Wf(st) ==> Wf(r)
  {
    st.(shouldShowBatchActions := false, rowsById := UpdatedSelection(st, false, filteredRowIds))
  }

  /**
   * After a cancel, a row is still selected only if a filter is active and
   * hides it; without a filter nothing is selected and the bar is hidden.
   */
  lemma CancelClearsSelection(st: TableState, filteredRowIds: seq<RowId>)
    ensures RowsPresent(Cancel(st, filteredRowIds))
    ensures forall id :: id in SelectedRows(Cancel(st, filteredRowIds)) ==>
      |st.rowIds| != |filteredRowIds| && id !in filteredRowIds
    ensures !GetBatchActionProps(Cancel(st, filteredRowIds)).shouldShowBatchActions
  {
  }

  /** The value select-all writes: select when no enabled row is selected, otherwise deselect. */
  predicate SelectAllTarget(st: TableState) {
    !(exists id :: id in st.rowsById && Selected(st.rowsById[id]))
  }

  /** In a well-formed state the target is "select" exactly when `selectedRows` is empty. */
  lemma SelectAllTargetIff(st: TableState)
    requires Wf(st)
    ensures SelectAllTarget(st) <==> SelectedRows(st) == []
  {
    if SelectedRows(st) != [] {
      assert SelectedRows(st)[0] in SelectedRows(st);
    }
  }

  /** `handleSelectAll`: write the target to every eligible row and show the bar exactly when selecting. */
  function SelectAll(st: TableState, filteredRowIds: seq<RowId>): (r: TableState)
    ensures r.rowIds == st.rowIds && r.isExpandedAll == st.isExpandedAll
    ensures r.shouldShowBatchActions == SelectAllTarget(st)
    ensures Wf(st) ==> Wf(r)
  {
    var isSelected := SelectAllTarget(st);
    st.(shouldShowBatchActions := isSelected, rowsById := UpdatedSelection(st, isSelected, filteredRowIds))
  }

  /**
   * Without a filter, select-all from an empty selection selects every
   * enabled row, and from any other selection clears it.
   */
  lemma SelectAllOutcome(st: TableState)
    requires Wf(st)
    ensures var r := SelectAll(st, st.rowIds);
      && RowsPresent(r)
      && SelectedRows(r) == (if SelectedRows(st) == [] then Filter(st.rowIds, EnabledIn(st.rowsById)) else [])
  {
    SelectAllTargetIff(st);
    var r := SelectAll(st, st.rowIds);
    if SelectedRows(st) == [] {
      FilterAlike(st.rowIds, SelectedIn(r.rowsById), EnabledIn(st.rowsById));
    }
  }

  /**
   * Select-all under a filter: every enabled row the filter shows takes the
   * value written, and every other row keeps its record.
   */
  lemma SelectAllFiltered(st: TableState, filterRows: (seq<RowId>, string) -> seq<RowId>, id: RowId)
    requires forall ids, v :: IsSubsequence(filterRows(ids, v), ids)
    requires id in st.rowIds
    ensures var shown, before := FilteredRowIds(st, filterRows), Lookup(st.rowsById, id);
      var after := SelectAll(st, shown).rowsById[id];
      after == if !before.disabled && id in shown then before.(isSelected := SelectAllTarget(st)) else before
  {
    var shown := FilteredRowIds(st, filterRows);
    EligibleMeansShown(st, filterRows, id);
    UpdatedSelectionSpares(st, SelectAllTarget(st), shown, id);
  }

  /**
   * Without a filter and with no disabled rows, select-all from an empty
   * selection checks the select-all box and shows the bar; from any other
   * selection the box ends neither checked nor indeterminate.
   */
  lemma SelectAllChecksBox(st: TableState)
    requires Wf(st) && |st.rowIds| > 0
    requires forall id :: id in st.rowsById ==> !st.rowsById[id].disabled
    ensures var r := SelectAll(st, st.rowIds);
      && RowsPresent(r)
      && SelectAllProps(r).checked == (SelectedRows(st) == [])
      && !SelectAllProps(r).indeterminate
      && GetBatchActionProps(r).shouldShowBatchActions == (SelectedRows(st) == [])
  {
    SelectAllOutcome(st);
    SelectAllTargetIff(st);
    var r := SelectAll(st, st.rowIds);
    if SelectedRows(st) == [] {
      FilterKeepsAll(st.rowIds, EnabledIn(st.rowsById));
      assert st.rowIds[0] in SelectedRows(r);
    }
  }

  /**
   * `handleOnSelectRow(rowId)`. Radio mode clears every row, toggles the
   * target and hides the bar. Checkbox mode toggles only the target and
   * predicts from the current count whether any row stays selected.
   */
  function SelectRow(st: TableState, rowId: RowId, radio: bool): (r: TableState)
    requires rowId in st.rowsById
    requires !radio ==> RowsPresent(st)
    ensures r.rowIds == st.rowIds && r.isExpandedAll == st.isExpandedAll
    ensures r.rowsById.Keys == st.rowsById.Keys
    ensures r.rowsById[rowId].isSelected == !st.rowsById[rowId].isSelected
  {
    var row := st.rowsById[rowId];
    var toggled := row.(isSelected := !row.isSelected);
    if radio then
      var cleared := map key | key in st.rowsById :: st.rowsById[key].(isSelected := false);
      st.(shouldShowBatchActions := false, rowsById := cleared[rowId := toggled])
    else
      var selectedRows := |Filter(st.rowIds, MarkedIn(st.rowsById))|;
      var selectedRowsCount := if !row.isSelected then selectedRows + 1 else selectedRows - 1;
      st.(
        shouldShowBatchActions := !row.isSelected || selectedRowsCount > 0,
        rowsById := st.rowsById[rowId := toggled])
  }

  /** Either mode changes only `isSelected`, and keeps the state well formed. */
  lemma SelectRowKeepsOtherFlags(st: TableState, rowId: RowId, radio: bool)
    requires rowId in st.rowsById
    requires !radio ==> RowsPresent(st)
    ensures var rows := SelectRow(st, rowId, radio).rowsById;
      forall id :: id in rows ==>
        rows[id].isExpanded == st.rowsById[id].isExpanded && rows[id].disabled == st.rowsById[id].disabled
    ensures Wf(st) ==> Wf(SelectRow(st, rowId, radio))
  {
  }

  /**
   * In radio mode every other row ends deselected, the target ends selected
   * exactly when it was not, so at most one row is selected afterwards, and
   * the bar is hidden.
   */
  lemma RadioSelectsAtMostOne(st: TableState, rowId: RowId)
    requires rowId in st.rowsById
    ensures var rows := SelectRow(st, rowId, true).rowsById;
      forall id :: id in rows && id != rowId ==> !rows[id].isSelected
    ensures SelectRow(st, rowId, true).rowsById[rowId].isSelected == !st.rowsById[rowId].isSelected
    ensures var rows := SelectRow(st, rowId, true).rowsById;
      forall a, b :: a in rows && b in rows && rows[a].isSelected && rows[b].isSelected ==> a == b
    ensures !SelectRow(st, rowId, true).shouldShowBatchActions
  {
  }

  /** In checkbox mode every other row keeps its record. */
  lemma CheckboxTouchesOnlyTarget(st: TableState, rowId: RowId)
    requires rowId in st.rowsById && RowsPresent(st)
    ensures var rows := SelectRow(st, rowId, false).rowsById;
      forall id :: id in rows && id != rowId ==> rows[id] == st.rowsById[id]
  {
  }

  /**
   * The checkbox handler's prediction is exact: in a well-formed state the
   * bar flag is set exactly when some row carries `isSelected` afterwards,
   * and selecting a row always sets it.
   */
  lemma CheckboxPredictionExact(st: TableState, rowId: RowId)
    requires Wf(st) && rowId in st.rowsById
    ensures var r := SelectRow(st, rowId, false);
      && (r.shouldShowBatchActions <==> Filter(r.rowIds, MarkedIn(r.rowsById)) != [])
      && (!st.rowsById[rowId].isSelected ==> r.shouldShowBatchActions)
  {
    var r := SelectRow(st, rowId, false);
    FilterToggle(st.rowIds, MarkedIn(st.rowsById), MarkedIn(r.rowsById), rowId);
    FilterMembers(r.rowIds, MarkedIn(r.rowsById));
  }

  /**
   * `handleOnExpandRow(rowId)`: toggle the target's `isExpanded` and nothing
   * else of its record; collapsing it also clears `isExpandedAll`.
   */
  function ExpandRow(st: TableState, rowId: RowId): (r: TableState)
    requires rowId in st.rowsById
    ensures r.rowIds == st.rowIds && r.rowsById.Keys == st.rowsById.Keys
    ensures r.rowsById[rowId].isExpanded == !st.rowsById[rowId].isExpanded
    ensures r.rowsById[rowId] == st.rowsById[rowId].(isExpanded := !st.rowsById[rowId].isExpanded)
    ensures forall id :: id in st.rowsById && id != rowId ==> r.rowsById[id] == st.rowsById[id]
    ensures r.shouldShowBatchActions == st.shouldShowBatchActions
    ensures r.isExpandedAll <==> st.isExpandedAll && !st.rowsById[rowId].isExpanded
    ensures Wf(st) ==> Wf(r)
  {
    var row := st.rowsById[rowId];
    st.(
      isExpandedAll := if row.isExpanded then false else st.isExpandedAll,
      rowsById := st.rowsById[rowId := row.(isExpanded := !row.isExpanded)])
  }

  /** Toggling a row twice restores every row and leaves `isExpandedAll` clear. */
  lemma ExpandRowTwice(st: TableState, rowId: RowId)
    requires rowId in st.rowsById
    ensures ExpandRow(ExpandRow(st, rowId), rowId) == st.(isExpandedAll := false)
  {
  }

  /** Collapsing a listed row un-expands the expand-all header. */
  lemma CollapseRowClearsHeader(st: TableState, rowId: RowId)
    requires RowsPresent(st) && rowId in st.rowIds && st.rowsById[rowId].isExpanded
    ensures RowsPresent(ExpandRow(st, rowId)) && !ExpandHeaderExpanded(ExpandRow(st, rowId))
  {
  }

  /**
   * `handleOnExpandAll`: flip `isExpandedAll` and give every listed row the
   * new value, keeping the rest of its record.
   */
  function ExpandAll(st: TableState): (r: TableState)
    ensures r.rowIds == st.rowIds && r.isExpandedAll == !st.isExpandedAll
    ensures r.shouldShowBatchActions == st.shouldShowBatchActions
    ensures forall id :: id in r.rowsById <==> id in st.rowIds
    ensures forall id :: id in st.rowIds ==> r.rowsById[id].isExpanded == r.isExpandedAll
    ensures forall id :: id in st.rowIds ==> r.rowsById[id] == Lookup(st.rowsById, id).(isExpanded := r.isExpandedAll)
    ensures Wf(st) ==> Wf(r)
  {
    var isExpandedAll := !st.isExpandedAll;
    st.(
      isExpandedAll := isExpandedAll,
      rowsById := map id | id in st.rowIds :: Lookup(st.rowsById, id).(isExpanded := isExpandedAll))
  }

  /** After expand-all the header reads expanded, unless it just collapsed a non-empty table. */
  lemma ExpandAllHeader(st: TableState)
    ensures ExpandHeaderExpanded(ExpandAll(st)) <==> !st.isExpandedAll || st.rowIds == []
  {
    if st.rowIds != [] {
      assert st.rowIds[0] in st.rowIds;
    }
  }

  /** Expanding or collapsing all rows leaves the selection alone. */
  lemma ExpandAllKeepsSelection(st: TableState)
    requires RowsPresent(st)
    ensures RowsPresent(ExpandAll(st)) && SelectedRows(ExpandAll(st)) == SelectedRows(st)
  {
    FilterAlike(st.rowIds, SelectedIn(ExpandAll(st).rowsById), SelectedIn(st.rowsById));
  }
}

=== FILE: gitignore_line.dfy ===
/**
 * One line of a `.gitignore` file, classified: blank lines and comments carry
 * nothing; every other line is a pattern body plus a negation flag, with the
 * `\#` / `\!` escapes undone.
 */
module GitignoreLine {
  import opened Options
  import opened Strings

  /** The `{ line, negated }` record of the source. */
  datatype NormalizedLine = NormalizedLine(line: string, negated: bool)

  /**
   * `normalizeGitignoreLine`: `None` for a blank or comment line; otherwise the
   * trimmed line, with a leading `!` moved into `negated`, or with the
   * backslash of a leading `\#` / `\!` dropped.
   */
  function NormalizeGitignoreLine(rawLine: string): (r: Option<NormalizedLine>)
    ensures r.None? <==> Trim(rawLine) == "" || Trim(rawLine)[0] == '#'
    ensures r.Some? ==> (r.value.negated <==> Trim(rawLine)[0] == '!')
  {
    var trimmedLine := Trim(rawLine);
    if trimmedLine == "" || trimmedLine[0] == '#' then None
    else
      var negated := trimmedLine[0] == '!';
      var unescapedLine :=
        if StartsWithEscape(trimmedLine)
        then trimmedLine[1..]
        else trimmedLine;
      var line := if negated then unescapedLine[1..] else unescapedLine;
      Some(NormalizedLine(line, negated))
  }

  /** `startsWith('\\#') || startsWith('\\!')`: an escaped literal `#` or `!`. */
  predicate StartsWithEscape(t: string) {
    |t| >= 2 && t[0] == '\\' && (t[1] == '#' || t[1] == '!')
  }

  /** The pattern body is what is left of the trimmed line after at most one leading marker character. */
  lemma BodyIsTrimmedSuffix(rawLine: string)
    requires NormalizeGitignoreLine(rawLine).Some?
    ensures var t, line := Trim(rawLine), NormalizeGitignoreLine(rawLine).value.line;
      |line| + 1 >= |t| && EndsWith(t, line)
  {
  }

  /**
   * A record `NormalizeGitignoreLine` can produce: nothing trailing is
   * whitespace, and a plain (non-negated) body is non-empty, does not start
   * with whitespace and does not itself start with an escape.
   */
  predicate Representable(n: NormalizedLine) {
    && (|n.line| == 0 || !IsJsWhitespace(n.line[|n.line| - 1]))
    && (!n.negated ==>
          && |n.line| > 0
          && !IsJsWhitespace(n.line[0])
          && !StartsWithEscape(n.line))
  }

  /** Writes a record back as a `.gitignore` line: `!` for negation, `\` before a literal leading `#` or `!`. */
  function Render(n: NormalizedLine): string {
    if n.negated then "!" + n.line
    else if |n.line| > 0 && (n.line[0] == '#' || n.line[0] == '!') then "\\" + n.line
    else n.line
  }

  lemma TrimTrimmed(s: string)
    requires IsTrimmed(s)
    ensures Trim(s) == s
  {
  }

  /** Every representable record survives being written out and read back. */
  lemma RenderRoundTrip(n: NormalizedLine)
    requires Representable(n)
    ensures NormalizeGitignoreLine(Render(n)) == Some(n)
  {
    if n.negated {
      NegatedRoundTrip(n.line);
    } else if n.line[0] == '#' || n.line[0] == '!' {
      EscapedRoundTrip(n.line);
    } else {
      PlainRoundTrip(n.line);
    }
  }

  lemma NegatedRoundTrip(line: string)
    requires Representable(NormalizedLine(line, true))
    ensures NormalizeGitignoreLine("!" + line) == Some(NormalizedLine(line, true))
  {
    var s := "!" + line;
    assert IsTrimmed(s) by {
      if |line| > 0 {
        assert s[|s| - 1] == line[|line| - 1];
      }
    }
    TrimTrimmed(s);
    assert s[1..] == line;
  }

  lemma EscapedRoundTrip(line: string)
    requires Representable(NormalizedLine(line, false))
    requires line[0] == '#' || line[0] == '!'
    ensures NormalizeGitignoreLine("\\" + line) == Some(NormalizedLine(line, false))
  {
    var s := "\\" + line;
    assert s[|s| - 1] == line[|line| - 1];
    TrimTrimmed(s);
    assert s[1..] == line;
    assert s[..2] == ['\\', line[0]];
  }

  lemma PlainRoundTrip(line: string)
    requires Representable(NormalizedLine(line, false))
    requires line[0] != '#' && line[0] != '!'
    ensures NormalizeGitignoreLine(line) == Some(NormalizedLine(line, false))
  {
    TrimTrimmed(line);
  }

  /** Conversely, everything `NormalizeGitignoreLine` produces is representable. */
  lemma NormalizedIsRepresentable(rawLine: string)
    requires NormalizeGitignoreLine(rawLine).Some?
    ensures Representable(NormalizeGitignoreLine(rawLine).value)
  {
    var t := Trim(rawLine);
    var n := NormalizeGitignoreLine(rawLine).value;
    assert IsTrimmed(t) && |t| > 0;
    if n.negated {
      assert n.line == t[1..];
    } else if StartsWithEscape(t) {
      assert n.line == t[1..];
      assert n.line[0] == t[1];
      assert n.line[0] == '#' || n.line[0] == '!';
    } else {
      assert n.line == t;
    }
  }

  /** Hence reading a line, writing it back and reading it again changes nothing. */
  lemma NormalizeRenderStable(rawLine: string)
    requires NormalizeGitignoreLine(rawLine).Some?
    ensures NormalizeGitignoreLine(Render(NormalizeGitignoreLine(rawLine).value)) == NormalizeGitignoreLine(rawLine)
  {
    NormalizedIsRepresentable(rawLine);
    RenderRoundTrip(NormalizeGitignoreLine(rawLine).value);
  }

  /** Blank lines and comments from the repository's tests carry nothing. */
  lemma BlankAndCommentExamples()
    ensures NormalizeGitignoreLine("") == None
    ensures NormalizeGitignoreLine("   ") == None
    ensures NormalizeGitignoreLine("# comment") == None
  {
    assert AllWhitespace("   ");
    TrimBlank("   ");
    TrimTrimmed("# comment");
  }

  /** A leading `!` negates, as in the repository's tests. */
  lemma NegationExample()
    ensures NormalizeGitignoreLine("!dist/") == Some(NormalizedLine("dist/", true))
  {
    TrimTrimmed("!dist/");
    assert "!dist/"[1..] == "dist/";
  }

  /**
   * `\#literal` and `\!literal` keep the marker as a literal first character
   * instead of a comment or a negation, as in the repository's tests.
   */
  lemma EscapeExample(marker: char)
    requires marker == '#' || marker == '!'
    ensures var line := [marker] + "literal";
      NormalizeGitignoreLine("\\" + line) == Some(NormalizedLine(line, false))
  {
    var line := [marker] + "literal";
    assert line[0] == marker && line[|line| - 1] == 'l';
    EscapedRoundTrip(line);
  }
}

=== FILE: gitignore_walk.dfy ===
/**
 * The search for `.gitignore` files below a repository root. The directory
 * tree is a value: reading a directory is looking up the entries of its node.
 * A path below the root is the list of names leading to it; the source joins
 * them onto the root with `path.join`, and `CurrentDir` does the same.
 */
module GitignoreWalk {
  import opened PosixPath

  /** A directory entry as `readdirSync(…, { withFileTypes: true })` reports it. */
  datatype Entry =
    | File(name: string)
    | Dir(name: string, entries: seq<Entry>)
    | Link(name: string, target: string)

  /** A directory still to be read: its path below the root and what reading it returns. */
  datatype Pending = Pending(path: seq<string>, entries: seq<Entry>)

  const GitignoreName := ".gitignore"

  /**
   * An entry the walk descends into: a real directory (not a symbolic link)
   * that is neither a `.gitignore` itself nor `.git` nor `node_modules`.
   */
  predicate Traversed(e: Entry) {
    e.Dir? && e.name != GitignoreName && e.name != ".git" && e.name != "node_modules"
  }

  /** The string the source holds for a pending directory: the root itself, or the names joined onto it. */
  function CurrentDir(rootDir: string, path: seq<string>): string {
    if path == [] then rootDir else JoinPaths([rootDir] + path)
  }

  /** Only the root can be held as the empty string, and only when it was given as one. */
  lemma CurrentDirEmpty(rootDir: string, path: seq<string>)
    ensures CurrentDir(rootDir, path) == "" <==> rootDir == "" && path == []
  {
  }

  /** The `.gitignore` paths one directory read reports, in entry order. */
  function Reported(path: seq<string>, entries: seq<Entry>): (r: seq<seq<string>>)
    ensures |r| <= |entries|
  {
    if entries == [] then []
    else
      var last := entries[|entries| - 1];
      Reported(path, entries[..|entries| - 1]) + (if last.name == GitignoreName then [path + [GitignoreName]] else [])
  }

  /** The directories one directory read pushes, in entry order. */
  function Subdirs(path: seq<string>, entries: seq<Entry>): (r: seq<Pending>)
    ensures |r| <= |entries|
  {
    if entries == [] then []
    else
      var last := entries[|entries| - 1];
      Subdirs(path, entries[..|entries| - 1]) + (if Traversed(last) then [Pending(path + [last.name], last.entries)] else [])
  }

  function EntrySize(e: Entry): nat {
    match e
    case Dir(_, es) => 1 + Size(es)
    case _ => 1
  }

  /** The number of entries in a tree, counted at every depth. */
  function Size(es: seq<Entry>): nat {
    if es == [] then 0 else Size(es[..|es| - 1]) + EntrySize(es[|es| - 1])
  }

  /** The number of directories on a stack plus everything inside them. */
  function StackSize(st: seq<Pending>): nat {
    if st == [] then 0 else StackSize(st[..|st| - 1]) + 1 + Size(st[|st| - 1].entries)
  }

  lemma {:induction false} StackSizeAppend(a: seq<Pending>, b: seq<Pending>)
    ensures StackSize(a + b) == StackSize(a) + StackSize(b)
  {
    if b == [] {
      assert a + b == a;
    } else {
      var b' := b[..|b| - 1];
      StackSizeAppend(a, b');
      assert (a + b)[..|a + b| - 1] == a + b';
    }
  }

  /** What one directory pushes is no bigger than what it holds. */
  lemma {:induction false} SubdirsSize(path: seq<string>, entries: seq<Entry>)
    ensures StackSize(Subdirs(path, entries)) <= Size(entries)
  {
    if entries != [] {
      var init, last := entries[..|entries| - 1], entries[|entries| - 1];
      SubdirsSize(path, init);
      StackSizeAppend(Subdirs(path, init), if Traversed(last) then [Pending(path + [last.name], last.entries)] else []);
    }
  }

  /**
   * The order in which the stack-driven search reports files, as a recursive
   * definition: a directory's own `.gitignore` first, then the subtrees of its
   * subdirectories, the last-listed one first (it is popped first).
   */
  function Walk(p: Pending): seq<seq<string>>
    decreases Size(p.entries), 1
  {
    SubdirsSize(p.path, p.entries);
    Reported(p.path, p.entries) + WalkStack(Subdirs(p.path, p.entries))
  }

  /** What a stack of pending directories still reports: the top one's subtree first. */
  function WalkStack(st: seq<Pending>): seq<seq<string>>
    decreases StackSize(st), 0
  {
    if st == [] then []
    else Walk(st[|st| - 1]) + WalkStack(st[..|st| - 1])
  }

  lemma {:induction false} WalkStackAppend(a: seq<Pending>, b: seq<Pending>)
    ensures WalkStack(a + b) == WalkStack(b) + WalkStack(a)
    decreases |b|
  {
    if b == [] {
      assert a + b == a;
    } else {
      var b' := b[..|b| - 1];
      assert (a + b)[..|a + b| - 1] == a + b';
      assert (a + b)[|a + b| - 1] == b[|b| - 1];
      WalkStackAppend(a, b');
    }
  }

  /** Reading one more entry of a directory adds what that entry reports and pushes. */
  lemma EntryStep(path: seq<string>, entries: seq<Entry>, j: nat)
    requires j < |entries|
    ensures Reported(path, entries[..j + 1])
         == Reported(path, entries[..j]) + (if entries[j].name == GitignoreName then [path + [GitignoreName]] else [])
    ensures Subdirs(path, entries[..j + 1])
         == Subdirs(path, entries[..j]) + (if Traversed(entries[j]) then [Pending(path + [entries[j].name], entries[j].entries)] else [])
  {
    assert entries[..j + 1][..j] == entries[..j];
  }

  /** Reading the top directory replaces it by its subdirectories without changing what is still to come. */
  lemma PopStep(rest: seq<Pending>, top: Pending, before: seq<seq<string>>, total: seq<seq<string>>)
    requires before + WalkStack(rest + [top]) == total
    ensures before + Reported(top.path, top.entries) + WalkStack(rest + Subdirs(top.path, top.entries)) == total
    ensures StackSize(rest + Subdirs(top.path, top.entries)) < StackSize(rest + [top])
  {
    var subs := Subdirs(top.path, top.entries);
    var r, s, w := Reported(top.path, top.entries), WalkStack(subs), WalkStack(rest);
    PopOrder(rest, top);
    assert WalkStack(rest + [top]) == r + s + w;
    assert WalkStack(rest + subs) == s + w;
    Reassociate(before, r, s, w);
    PopShrinks(rest, top);
  }

  lemma Reassociate<T>(a: seq<T>, b: seq<T>, c: seq<T>, d: seq<T>)
    ensures a + b + (c + d) == a + (b + c + d)
  {
  }

  lemma PopOrder(rest: seq<Pending>, top: Pending)
    ensures WalkStack(rest + [top])
         == Reported(top.path, top.entries) + WalkStack(Subdirs(top.path, top.entries)) + WalkStack(rest)
    ensures WalkStack(rest + Subdirs(top.path, top.entries))
         == WalkStack(Subdirs(top.path, top.entries)) + WalkStack(rest)
  {
    WalkStackAppend(rest, Subdirs(top.path, top.entries));
    assert (rest + [top])[..|rest|] == rest;
  }

  lemma PopShrinks(rest: seq<Pending>, top: Pending)
    ensures StackSize(rest + Subdirs(top.path, top.entries)) < StackSize(rest + [top])
  {
    var subs := Subdirs(top.path, top.entries);
    SubdirsSize(top.path, top.entries);
    StackSizeAppend(rest, subs);
    assert (rest + [top])[..|rest|] == rest;
  }

  /**
   * The `for` loop over one directory's entries: a `.gitignore` entry is
   * reported, a traversed directory is pushed, anything else is skipped.
   */
  method ReadDirectory(currentDir: Pending, found: seq<seq<string>>, pending: seq<Pending>)
    returns (found': seq<seq<string>>, pending': seq<Pending>)
    ensures found' == found + Reported(currentDir.path, currentDir.entries)
    ensures pending' == pending + Subdirs(currentDir.path, currentDir.entries)
  {
    var entries := currentDir.entries;
    found', pending' := found, pending;
    var j := 0;
    while j < |entries|
      invariant 0 <= j <= |entries|
      invariant found' == found + Reported(currentDir.path, entries[..j])
      invariant pending' == pending + Subdirs(currentDir.path, entries[..j])
    {
      var entry := entries[j];
      EntryStep(currentDir.path, entries, j);
      if entry.name == GitignoreName {
        found' := found' + [currentDir.path + [entry.name]];
      } else if !entry.Dir? || entry.Link? {
      } else if entry.name == ".git" || entry.name == "node_modules" {
      } else {
        pending' := pending' + [Pending(currentDir.path + [entry.name], entry.entries)];
      }
      j := j + 1;
    }
    assert entries[..j] == entries;
  }

  /**
   * `findGitignoreFiles` over the tree `root` below `rootDir`: pops the most
   * recently pushed directory, stops at once if it is held as the empty
   * string, reports a `.gitignore` entry, skips files, links, `.git` and
   * `node_modules`, and pushes every other subdirectory. The result lists the
   * reported paths below the root, in the order `Walk` defines.
   */
  method FindGitignoreFiles(rootDir: string, root: seq<Entry>) returns (gitignoreFiles: seq<seq<string>>)
    ensures rootDir == "" ==> gitignoreFiles == []
    ensures rootDir != "" ==> gitignoreFiles == Walk(Pending([], root))
  {
    gitignoreFiles := [];
    var pendingDirs := [Pending([], root)];
    ghost var total := Walk(Pending([], root));
    assert WalkStack(pendingDirs) == total + WalkStack([]);
    while |pendingDirs| > 0
      invariant rootDir == "" ==> gitignoreFiles == [] && pendingDirs == [Pending([], root)]
      invariant gitignoreFiles + WalkStack(pendingDirs) == total
      decreases StackSize(pendingDirs)
    {
      var currentDir := pendingDirs[|pendingDirs| - 1];
      var rest := pendingDirs[..|pendingDirs| - 1];
      assert rest + [currentDir] == pendingDirs;
      pendingDirs := rest;
      CurrentDirEmpty(rootDir, currentDir.path);
      if CurrentDir(rootDir, currentDir.path) == "" {
        break;
      }
      var reportedBefore := gitignoreFiles;
      gitignoreFiles, pendingDirs := ReadDirectory(currentDir, gitignoreFiles, pendingDirs);
      PopStep(rest, currentDir, reportedBefore, total);
    }
  }

  /**
   * The files the search should find, stated without a stack: a path reaches a
   * `.gitignore` when it names one in the directory, or names a traversed
   * subdirectory followed by a path that reaches one inside it.
   */
  predicate Reaches(entries: seq<Entry>, f: seq<string>)
    decreases entries
  {
    || (f == [GitignoreName] && exists e :: e in entries && e.name == GitignoreName)
    || (|f| >= 2 && exists e :: e in entries && Traversed(e) && e.name == f[0] && Reaches(e.entries, f[1..]))
  }

  lemma {:induction false} ReportedMembers(path: seq<string>, entries: seq<Entry>, f: seq<string>)
    ensures f in Reported(path, entries) <==>
      f == path + [GitignoreName] && exists e :: e in entries && e.name == GitignoreName
  {
    if entries != [] {
      var init, last := entries[..|entries| - 1], entries[|entries| - 1];
      ReportedMembers(path, init, f);
      assert entries == init + [last];
      if f == path + [GitignoreName] && (exists e :: e in entries && e.name == GitignoreName) && last.name != GitignoreName {
        var e :| e in entries && e.name == GitignoreName;
        assert e in init;
      }
    }
  }

  lemma {:induction false} SubdirsMembers(path: seq<string>, entries: seq<Entry>, q: Pending)
    ensures q in Subdirs(path, entries) <==>
      exists e :: e in entries && Traversed(e) && q == Pending(path + [e.name], e.entries)
  {
    if entries != [] {
      var init, last := entries[..|entries| - 1], entries[|entries| - 1];
      SubdirsMembers(path, init, q);
      assert entries == init + [last];
      if q !in Subdirs(path, entries) {
        forall e | e in entries && Traversed(e) ensures q != Pending(path + [e.name], e.entries) {
          if e != last {
            assert e in init;
          }
        }
      }
    }
  }

  lemma {:induction false} WalkStackMembers(st: seq<Pending>, f: seq<string>)
    ensures f in WalkStack(st) <==> exists i :: 0 <= i < |st| && f in Walk(st[i])
    decreases |st|
  {
    if st != [] {
      var init := st[..|st| - 1];
      WalkStackMembers(init, f);
      if f in WalkStack(st) && f !in Walk(st[|st| - 1]) {
        var i :| 0 <= i < |init| && f in Walk(init[i]);
        assert st[i] == init[i];
      }
      if exists i :: 0 <= i < |st| && f in Walk(st[i]) {
        var i :| 0 <= i < |st| && f in Walk(st[i]);
        if i < |st| - 1 {
          assert init[i] == st[i];
        }
      }
    }
  }

  /** Everything the search reports lies below the directory it started from and reaches a `.gitignore` from there. */
  lemma {:induction false} WalkSound(p: Pending, f: seq<string>)
    requires f in Walk(p)
    ensures |p.path| < |f| && f[..|p.path|] == p.path && Reaches(p.entries, f[|p.path|..])
    decreases p.entries
  {
    var subs := Subdirs(p.path, p.entries);
    ReportedMembers(p.path, p.entries, f);
    if f in Reported(p.path, p.entries) {
      assert f[|p.path|..] == [GitignoreName];
    } else {
      WalkStackMembers(subs, f);
      var i :| 0 <= i < |subs| && f in Walk(subs[i]);
      SubdirsMembers(p.path, p.entries, subs[i]);
      var e :| e in p.entries && Traversed(e) && subs[i] == Pending(p.path + [e.name], e.entries);
      WalkSound(subs[i], f);
      ReachesThrough(p.path, p.entries, e, f);
    }
  }

  /** A path through a traversed subdirectory `e` that reaches a `.gitignore` inside `e` reaches one from the parent. */
  lemma ReachesThrough(path: seq<string>, entries: seq<Entry>, e: Entry, f: seq<string>)
    requires e in entries && Traversed(e)
    requires |path| + 1 < |f| && f[..|path| + 1] == path + [e.name] && Reaches(e.entries, f[|path| + 1..])
    ensures |path| < |f| && f[..|path|] == path && Reaches(entries, f[|path|..])
  {
    var n := |path|;
    var g := f[n..];
    assert f[..n] == f[..n + 1][..n];
    assert g[0] == e.name;
    assert g[1..] == f[n + 1..];
  }

  /** Everything that reaches a `.gitignore` below the starting directory is reported. */
  lemma {:induction false} WalkComplete(p: Pending, g: seq<string>)
    requires Reaches(p.entries, g)
    ensures p.path + g in Walk(p)
    decreases p.entries
  {
    var subs := Subdirs(p.path, p.entries);
    var f := p.path + g;
    if g == [GitignoreName] && exists e :: e in p.entries && e.name == GitignoreName {
      ReportedMembers(p.path, p.entries, f);
    } else {
      var e :| e in p.entries && Traversed(e) && e.name == g[0] && Reaches(e.entries, g[1..]);
      var q := Pending(p.path + [e.name], e.entries);
      SubdirsMembers(p.path, p.entries, q);
      var i :| 0 <= i < |subs| && subs[i] == q;
      WalkComplete(q, g[1..]);
      assert q.path + g[1..] == f;
      WalkStackMembers(subs, f);
    }
  }

  /** The search from the root reports exactly the paths that reach a `.gitignore`. */
  lemma FoundIffReaches(root: seq<Entry>, f: seq<string>)
    ensures f in Walk(Pending([], root)) <==> Reaches(root, f)
  {
    if f in Walk(Pending([], root)) {
      WalkSound(Pending([], root), f);
      assert f[0..] == f;
    }
    if Reaches(root, f) {
      WalkComplete(Pending([], root), f);
      assert [] + f == f;
    }
  }

  /**
   * Every reported path ends with the `.gitignore` name and passes through no
   * `.git`, `node_modules` or `.gitignore` directory.
   */
  lemma {:induction false} ReachesShape(entries: seq<Entry>, f: seq<string>)
    requires Reaches(entries, f)
    ensures |f| >= 1 && f[|f| - 1] == GitignoreName
    ensures forall k :: 0 <= k < |f| - 1 ==> f[k] != ".git" && f[k] != "node_modules" && f[k] != GitignoreName
    decreases entries
  {
    if |f| >= 2 && exists e :: e in entries && Traversed(e) && e.name == f[0] && Reaches(e.entries, f[1..]) {
      var e :| e in entries && Traversed(e) && e.name == f[0] && Reaches(e.entries, f[1..]);
      ReachesShape(e.entries, f[1..]);
      forall k | 0 < k < |f| - 1 ensures f[k] != ".git" && f[k] != "node_modules" && f[k] != GitignoreName {
        assert f[k] == f[1..][k - 1];
      }
    }
  }

  /** One more entry at the end of a directory listing. */
  lemma ReadSnoc(path: seq<string>, entries: seq<Entry>, e: Entry)
    ensures Reported(path, entries + [e]) == Reported(path, entries) + (if e.name == GitignoreName then [path + [GitignoreName]] else [])
    ensures Subdirs(path, entries + [e]) == Subdirs(path, entries) + (if Traversed(e) then [Pending(path + [e.name], e.entries)] else [])
  {
    assert (entries + [e])[..|entries|] == entries;
  }

  /** A directory holding just a `.gitignore` file reports just that file. */
  lemma WalkLeaf(path: seq<string>)
    ensures Walk(Pending(path, [File(GitignoreName)])) == [path + [GitignoreName]]
  {
    ReadSnoc(path, [], File(GitignoreName));
    assert [] + [File(GitignoreName)] == [File(GitignoreName)];
  }

  /** A name the search descends into when it names a directory. */
  predicate OrdinaryName(n: string) {
    n != GitignoreName && n != ".git" && n != "node_modules"
  }

  /**
   * The repository's skip test: of four `.gitignore` files, at the root, in an
   * ordinary directory, under `node_modules` and under `.git`, only the first
   * two are found.
   */
  lemma SkipsToolDirectories(src: string, pkg: string)
    requires OrdinaryName(src)
    ensures var leaf := [File(GitignoreName)];
      var root := [File(GitignoreName), Dir(src, leaf), Dir("node_modules", [Dir(pkg, leaf)]), Dir(".git", leaf)];
      Walk(Pending([], root)) == [[GitignoreName], [src, GitignoreName]]
  {
    var leaf := [File(GitignoreName)];
    var e0, e1, e2, e3 := File(GitignoreName), Dir(src, leaf), Dir("node_modules", [Dir(pkg, leaf)]), Dir(".git", leaf);
    var root := [e0, e1, e2, e3];
    RootAndSource(src);
    ReadSkipped([], [e0, e1], e2);
    assert [e0, e1] + [e2] == [e0, e1, e2];
    ReadSkipped([], [e0, e1, e2], e3);
    assert [e0, e1, e2] + [e3] == root;
    TopWalk(root, Pending([src], leaf), [[GitignoreName]]);
    assert [src] + [GitignoreName] == [src, GitignoreName];
  }

  /** The first two entries of the skip test: the root's own `.gitignore` and an ordinary directory. */
  lemma RootAndSource(src: string)
    requires OrdinaryName(src)
    ensures var leaf := [File(GitignoreName)];
      && Reported([], [File(GitignoreName), Dir(src, leaf)]) == [[GitignoreName]]
      && Subdirs([], [File(GitignoreName), Dir(src, leaf)]) == [Pending([src], leaf)]
  {
    var leaf := [File(GitignoreName)];
    var e0, e1 := File(GitignoreName), Dir(src, leaf);
    ReadSnoc([], [], e0);
    assert [] + [e0] == [e0];
    assert [] + [GitignoreName] == [GitignoreName];
    ReadSnoc([], [e0], e1);
    assert [e0] + [e1] == [e0, e1];
    assert Traversed(e1) && [] + [src] == [src];
  }

  /** An entry that is neither a `.gitignore` nor traversed adds nothing to a directory read. */
  lemma ReadSkipped(path: seq<string>, entries: seq<Entry>, e: Entry)
    requires e.name != GitignoreName && !Traversed(e)
    ensures Reported(path, entries + [e]) == Reported(path, entries)
    ensures Subdirs(path, entries + [e]) == Subdirs(path, entries)
  {
    ReadSnoc(path, entries, e);
  }

  /** The repository's symbolic-link test: a link to a directory is not followed. */
  lemma SkipsSymbolicLinks(target: string, link: string)
    requires OrdinaryName(target) && link != GitignoreName
    ensures var root := [Dir(target, [File(GitignoreName)]), Link(link, target)];
      Walk(Pending([], root)) == [[target, GitignoreName]]
  {
    var leaf := [File(GitignoreName)];
    var e0, e1 := Dir(target, leaf), Link(link, target);
    var root := [e0, e1];
    assert Reported([], []) == [] && Subdirs([], []) == [];
    ReadSnoc([], [], e0);
    assert [] + [e0] == [e0];
    assert Traversed(e0) && [] + [target] == [target];
    assert Reported([], [e0]) == [] && Subdirs([], [e0]) == [] + [Pending([target], leaf)];
    ReadSnoc([], [e0], e1);
    assert [e0] + [e1] == root;
    var sub := Pending([target], leaf);
    assert Subdirs([], root) == [sub];
    assert Reported([], root) == [];
    TopWalk(root, sub, []);
    assert [target] + [GitignoreName] == [target, GitignoreName];
  }

  /** A root whose only traversed subdirectory holds just a `.gitignore`. */
  lemma TopWalk(root: seq<Entry>, sub: Pending, own: seq<seq<string>>)
    requires sub.entries == [File(GitignoreName)]
    requires Reported([], root) == own && Subdirs([], root) == [sub]
    ensures Walk(Pending([], root)) == own + [sub.path + [GitignoreName]]
  {
    WalkLeaf(sub.path);
    assert WalkStack([sub]) == Walk(sub) + WalkStack([]);
  }
}

=== FILE: menu.dfy ===
/**
 * The keyboard and placement arithmetic of a menu: which item an arrow key
 * moves focus to, which keys close the menu, and where a menu opened at a
 * point or beside an activator is placed. Pixel values are integers here.
 */
module Menu {
  import opened Options

  /** The distance kept to the window edges, in pixels. */
  const Spacing := 8

  /** The keys the handlers tell apart. */
  datatype Key = Escape | ArrowLeft | ArrowRight | ArrowUp | ArrowDown | OtherKey

  // ---------------------------------------------------------------- keyboard focus

  /**
   * The index `focusItem` settles on. `current` is the position of the focused
   * item among the `count` focusable ones, or -1 when none has focus; `key` is
   * absent when the menu focuses its first item on opening.
   */
  function IndexToFocus(current: int, key: Option<Key>, count: nat): (r: int)
    requires -1 <= current < count
    ensures count > 0 ==> 0 <= r < count
    ensures current == -1 ==> r == 0
  {
    var stepped :=
      if current == -1 then 0
      else if key == Some(ArrowUp) then current - 1
      else if key == Some(ArrowDown) then current + 1
      else current;
    var low := if stepped < 0 then count - 1 else stepped;
    if low >= count then 0 else low
  }

  /** ArrowDown moves to the next item, from the last one back to the first. */
  lemma ArrowDownWraps(current: nat, count: nat)
    requires current < count
    ensures IndexToFocus(current, Some(ArrowDown), count) == (current + 1) % count
  {
  }

  /** ArrowUp moves to the previous item, from the first one round to the last. */
  lemma ArrowUpWraps(current: nat, count: nat)
    requires current < count
    ensures IndexToFocus(current, Some(ArrowUp), count) == (current + count - 1) % count
  {
  }

  /** ArrowUp undoes ArrowDown and the other way round. */
  lemma ArrowsInverse(current: nat, count: nat)
    requires current < count
    ensures IndexToFocus(IndexToFocus(current, Some(ArrowDown), count), Some(ArrowUp), count) == current
    ensures IndexToFocus(IndexToFocus(current, Some(ArrowUp), count), Some(ArrowDown), count) == current
  {
  }

  /** Other keys, and no key, keep a focused item where it is. */
  lemma OtherKeysStay(current: nat, key: Option<Key>, count: nat)
    requires current < count && key != Some(ArrowUp) && key != Some(ArrowDown)
    ensures IndexToFocus(current, key, count) == current
  {
  }

  /** What `focusItem` does: focus the item at an index, leave focus alone, or throw. */
  datatype FocusOutcome = MoveFocus(index: nat) | KeepFocus | TypeError

  /**
   * `focusItem` as written. It reads `focusableItems[indexToFocus].ref`
   * whenever the index differs from the current one. With no focusable items
   * that element is `undefined` and the read throws.
   */
  function FocusItemAsWritten(current: int, key: Option<Key>, count: nat): (r: FocusOutcome)
    requires -1 <= current < count
    ensures r.TypeError? <==> count == 0
    ensures r.MoveFocus? ==> r.index == IndexToFocus(current, key, count) != current
    ensures r.KeepFocus? <==> count > 0 && IndexToFocus(current, key, count) == current
  {
    var indexToFocus := IndexToFocus(current, key, count);
    if indexToFocus != current then
      if indexToFocus < count then MoveFocus(indexToFocus) else TypeError
    else KeepFocus
  }

  /**
   * `focusItem` with the guard the opening effect already applies: nothing
   * happens when there is no focusable item.
   */
  function FocusItem(current: int, key: Option<Key>, count: nat): (r: FocusOutcome)
    requires -1 <= current < count
    ensures !r.TypeError?
    ensures r.MoveFocus? ==> r.index == IndexToFocus(current, key, count) && r.index < count && r.index != current
    ensures r.KeepFocus? <==> count == 0 || IndexToFocus(current, key, count) == current
  {
    if count == 0 then KeepFocus else FocusItemAsWritten(current, key, count)
  }

  /** On a menu with focusable items the guarded version does what the written one does. */
  lemma FocusItemAgrees(current: int, key: Option<Key>, count: nat)
    requires -1 <= current < count && count > 0
    ensures FocusItem(current, key, count) == FocusItemAsWritten(current, key, count)
  {
  }

  /** What a key press does: ask the parent to close the menu, or move focus. */
  datatype KeyOutcome = Close | Focus(outcome: FocusOutcome)

  /** The keys `handleKeyDown` closes the menu on, when it has an `onClose` handler. */
  predicate ClosingKey(key: Key, isRoot: bool) {
    key == Escape || (!isRoot && key == ArrowLeft)
  }

  /**
   * `handleKeyDown` as written: Escape, or ArrowLeft in a submenu, closes the
   * menu when an `onClose` handler exists; every other key goes to
   * `focusItem` unguarded.
   */
  function HandleKeyDownAsWritten(key: Key, isRoot: bool, hasOnClose: bool, current: int, count: nat): (r: KeyOutcome)
    requires -1 <= current < count
    ensures r.Close? <==> hasOnClose && ClosingKey(key, isRoot)
    ensures r.Focus? ==> r.outcome == FocusItemAsWritten(current, Some(key), count)
  {
    if ClosingKey(key, isRoot) && hasOnClose then Close
    else Focus(FocusItemAsWritten(current, Some(key), count))
  }

  /** In a menu without focusable items, every key press that does not close the menu throws. */
  lemma EmptyMenuKeyPressThrows(key: Key, isRoot: bool, hasOnClose: bool)
    ensures HandleKeyDownAsWritten(key, isRoot, hasOnClose, -1, 0)
         == if hasOnClose && ClosingKey(key, isRoot) then Close else Focus(TypeError)
  {
  }

  /** `handleKeyDown` over the guarded `focusItem`: the same decision, and it never throws. */
  function HandleKeyDown(key: Key, isRoot: bool, hasOnClose: bool, current: int, count: nat): (r: KeyOutcome)
    requires -1 <= current < count
    ensures r.Close? <==> hasOnClose && ClosingKey(key, isRoot)
    ensures r.Focus? ==> r.outcome == FocusItem(current, Some(key), count) && !r.outcome.TypeError?
  {
    if ClosingKey(key, isRoot) && hasOnClose then Close
    else Focus(FocusItem(current, Some(key), count))
  }

  /** With a focusable item the corrected handler does exactly what the written one does. */
  lemma HandleKeyDownAgrees(key: Key, isRoot: bool, hasOnClose: bool, current: int, count: nat)
    requires -1 <= current < count && count > 0
    ensures HandleKeyDown(key, isRoot, hasOnClose, current, count)
         == HandleKeyDownAsWritten(key, isRoot, hasOnClose, current, count)
  {
    FocusItemAgrees(current, Some(key), count);
  }

  /** In the root menu ArrowLeft never closes, and it leaves a focused item in place. */
  lemma RootArrowLeftKeepsFocus(hasOnClose: bool, current: nat, count: nat)
    requires current < count
    ensures HandleKeyDown(ArrowLeft, true, hasOnClose, current, count) == Focus(KeepFocus)
  {
  }

  // ---------------------------------------------------------------- placement

  /** The `x` / `y` props: one coordinate, or the two edges of the activator. */
  datatype Coord = Point(v: int) | Span(a: int, b: int)

  /** What `getPosition` accepts: a number, or a list whose entries may be missing. */
  datatype PositionArg = Number(n: int) | List(xs: seq<Option<int>>)

  function AsArg(c: Coord): PositionArg {
    match c
    case Point(v) => Number(v)
    case Span(a, b) => List([Some(a), Some(b)])
  }

  /**
   * `getPosition`: a number is the range `[x, x]`; a list gives its present
   * entries when exactly two are present, and nothing otherwise.
   */
  function GetPosition(x: PositionArg): (r: Option<(int, int)>)
    ensures x.Number? ==> r == Some((x.n, x.n))
    ensures x.List? ==> (r.Some? <==> |Values(x.xs)| == 2)
    ensures x.List? && r.Some? ==> [r.value.0, r.value.1] == Values(x.xs)
  {
    match x
    case Number(n) => Some((n, n))
    case List(xs) =>
      var filtered := Values(xs);
      if |filtered| == 2 then
        assert [filtered[0], filtered[1]] == filtered;
        Some((filtered[0], filtered[1]))
      else None
  }

  /** Every value the props can hold has a range, with the edges in the order given. */
  lemma PropsHaveRange(c: Coord)
    ensures GetPosition(AsArg(c)) == Some(match c case Point(v) => (v, v) case Span(a, b) => (a, b))
  {
    if c.Span? {
      ValuesAllPresent([Some(c.a), Some(c.b)]);
    }
  }

  /** The props and surroundings `fitValue` reads. `menuSize` is absent while the menu is not mounted. */
  datatype Layout = Layout(
    menuSize: Option<(int, int)>,
    innerWidth: int,
    innerHeight: int,
    actionButtonWidth: Option<int>,
    menuAlignment: string,
    isRoot: bool)

  datatype Axis = X | Y

  /** One axis of the placement problem. */
  datatype AxisMetrics = AxisMetrics(max: int, size: int, anchor: int, reversedAnchor: int, offset: int)

  /** JavaScript truthiness of an optional number: present and not zero. */
  predicate Truthy(v: Option<int>) {
    v.Some? && v.value != 0
  }

  predicate TopAlignment(menuAlignment: string) {
    menuAlignment == "top" || menuAlignment == "top-end" || menuAlignment == "top-start"
  }

  /** The alignments for which a narrower activator caps the menu's width. */
  predicate CentredAlignment(menuAlignment: string) {
    menuAlignment == "bottom" || menuAlignment == "top"
  }

  /** The alignments for which a narrower activator may move the horizontal anchor. */
  predicate EndAlignment(menuAlignment: string) {
    menuAlignment == "bottom-end" || menuAlignment == "top-end"
  }

  /**
   * The `axes` of `fitValue`. A root menu opens below its range (its vertical
   * anchor is the range's far edge), a submenu beside it with a 4px lift. A
   * narrower activator caps the width at its own for "top" and "bottom"
   * alignment, and for the "-end" ones moves an anchor at 87px or more.
   */
  function Axes(range: (int, int), width: int, height: int, lay: Layout): (r: (AxisMetrics, AxisMetrics))
    ensures r.0.max == lay.innerWidth && r.1.max == lay.innerHeight
    ensures r.0.offset == 0 && r.1.offset == (if lay.isRoot then 0 else 4)
    ensures r.1.size == height
    ensures lay.isRoot ==> r.1.anchor == range.1 && r.1.reversedAnchor == range.0 && r.0.reversedAnchor == range.1
    ensures !lay.isRoot ==> r.1.anchor == range.0 && r.1.reversedAnchor == range.1 && r.0.reversedAnchor == range.0
    ensures var abw := lay.actionButtonWidth;
      r.0.size == if Truthy(abw) && CentredAlignment(lay.menuAlignment) then Min(width, abw.value) else width
    ensures var abw, edge := lay.actionButtonWidth, if lay.isRoot then range.0 else range.1;
      r.0.anchor ==
        if Truthy(abw) && EndAlignment(lay.menuAlignment) && edge >= 87 && abw.value < width
        then edge + (edge + r.0.reversedAnchor)
        else edge
  {
    var horizontal := !lay.isRoot;
    var x := AxisMetrics(lay.innerWidth, width,
      if horizontal then range.1 else range.0,
      if horizontal then range.0 else range.1,
      0);
    var y := AxisMetrics(lay.innerHeight, height,
      if horizontal then range.0 else range.1,
      if horizontal then range.1 else range.0,
      if lay.isRoot then 0 else 4);
    var abw := lay.actionButtonWidth;
    var capped :=
      if Truthy(abw) && abw.value < x.size && CentredAlignment(lay.menuAlignment)
      then x.(size := abw.value) else x;
    var shifted :=
      if Truthy(abw) && EndAlignment(lay.menuAlignment)
        && capped.anchor >= 87 && abw.value < capped.size
      then capped.(anchor := capped.anchor + (capped.anchor + capped.reversedAnchor))
      else capped;
    (shifted, y)
  }

  /**
   * The alignment never changes the vertical axis, and without an activator
   * width it changes nothing at all.
   */
  lemma AxesAlignmentOnlyMovesX(range: (int, int), width: int, height: int, lay: Layout, other: string)
    ensures Axes(range, width, height, lay).1 == Axes(range, width, height, lay.(menuAlignment := other)).1
    ensures !Truthy(lay.actionButtonWidth) ==>
      Axes(range, width, height, lay) == Axes(range, width, height, lay.(menuAlignment := other))
  {
  }

  /**
   * The first workable candidate of `fitValue`: towards the far edge, else
   * reversed, else flush against the far edge. A top-aligned menu's vertical
   * axis falls back to its anchor instead of the reversed candidate.
   */
  function BestOption(m: AxisMetrics, axis: Axis, menuAlignment: string): (r: int)
    ensures r == m.anchor - m.offset || r == m.reversedAnchor - m.size + m.offset || r == m.max - Spacing - m.size
    ensures m.max - Spacing - m.size - m.anchor >= 0 ==> r == m.anchor - m.offset
  {
    var towardsMax := if m.max - Spacing - m.size - m.anchor >= 0 then Some(m.anchor - m.offset) else None;
    var reversed := if m.reversedAnchor - m.size >= 0 then Some(m.reversedAnchor - m.size + m.offset) else None;
    var alignAtMax := m.max - Spacing - m.size;
    var top := TopAlignment(menuAlignment);
    var first :=
      if towardsMax.Some? && top && towardsMax.value >= 0 && !Truthy(reversed) && axis == Y then towardsMax
      else if top && !Truthy(towardsMax) && axis == Y then Some(m.anchor - m.offset)
      else towardsMax;
    if first.Some? then first.value
    else if reversed.Some? then reversed.value
    else alignAtMax
  }

  /** Which candidate wins, case by case. */
  lemma BestOptionCases(m: AxisMetrics, axis: Axis, menuAlignment: string)
    ensures var fits, flips := m.max - Spacing - m.size - m.anchor >= 0, m.reversedAnchor - m.size >= 0;
      var forced := TopAlignment(menuAlignment) && axis == Y;
      BestOption(m, axis, menuAlignment) ==
        if fits || forced then m.anchor - m.offset
        else if flips then m.reversedAnchor - m.size + m.offset
        else m.max - Spacing - m.size
  {
  }

  /** `bestOption >= spacing ? bestOption : spacing`. */
  function AtLeastSpacing(v: int): (r: int)
    ensures r >= Spacing && r >= v
    ensures r == v || r == Spacing
  {
    if v >= Spacing then v else Spacing
  }

  /** `fitValue`: the clamped best candidate on one axis, or nothing while the menu is not mounted. */
  function FitValue(range: (int, int), axis: Axis, lay: Layout): (r: Option<int>)
    ensures r.Some? <==> lay.menuSize.Some?
    ensures r.Some? ==> r.value >= Spacing
  {
    match lay.menuSize
    case None => None
    case Some(size) =>
      var axes := Axes(range, size.0, size.1, lay);
      var m := if axis == X then axes.0 else axes.1;
      Some(AtLeastSpacing(BestOption(m, axis, lay.menuAlignment)))
  }

  /**
   * A root menu whose height fits below the range opens at its lower edge,
   * or at `Spacing` when that edge is above it.
   */
  lemma RootMenuOpensBelow(range: (int, int), lay: Layout)
    requires lay.isRoot && lay.menuSize.Some?
    requires lay.innerHeight - Spacing - lay.menuSize.value.1 - range.1 >= 0
    ensures FitValue(range, Y, lay) == Some(AtLeastSpacing(range.1))
  {
    BestOptionCases(Axes(range, lay.menuSize.value.0, lay.menuSize.value.1, lay).1, Y, lay.menuAlignment);
  }

  /**
   * `calculatePosition`: `[-1, -1]` when either prop gives no range, otherwise
   * each axis fitted separately, with -1 for an axis that cannot be fitted.
   */
  function CalculatePosition(x: PositionArg, y: PositionArg, lay: Layout): (r: (int, int))
    ensures r.0 == -1 <==> GetPosition(x).None? || GetPosition(y).None? || lay.menuSize.None?
    ensures r.1 == -1 <==> r.0 == -1
    ensures r.0 != -1 ==> r.0 >= Spacing && r.1 >= Spacing
  {
    var rx, ry := GetPosition(x), GetPosition(y);
    if rx.None? || ry.None? then (-1, -1)
    else (FitValue(rx.value, X, lay).Coalesce(-1), FitValue(ry.value, Y, lay).Coalesce(-1))
  }

  /** Positions from the props are fitted whenever the menu is mounted. */
  lemma PropsPositionFitted(x: Coord, y: Coord, lay: Layout)
    requires lay.menuSize.Some?
    ensures var r := CalculatePosition(AsArg(x), AsArg(y), lay);
      r.0 >= Spacing && r.1 >= Spacing
  {
    PropsHaveRange(x);
    PropsHaveRange(y);
  }

  /** A rectangle of the page, by its top-left corner and extent. */
  datatype Rect = Rect(left: int, top: int, width: int, height: int)

  function Ends(c: Coord): (int, int) {
    match c
    case Point(v) => (v, v)
    case Span(a, b) => (a, b)
  }

  /**
   * The virtual reference rectangle used when there is no container element:
   * the box spanned by the two `x` edges and the two `y` edges.
   */
  function VirtualRect(x: Coord, y: Coord): (r: Rect)
    ensures var (x1, x2) := Ends(x); r.left <= x1 && r.left <= x2 && (r.left == x1 || r.left == x2)
    ensures var (y1, y2) := Ends(y); r.top <= y1 && r.top <= y2 && (r.top == y1 || r.top == y2)
    ensures r.width >= 0 && r.height >= 0
    ensures var (x1, x2) := Ends(x); r.left + r.width == if x1 >= x2 then x1 else x2
    ensures var (y1, y2) := Ends(y); r.top + r.height == if y1 >= y2 then y1 else y2
  {
    var (vx1, vx2) := Ends(x);
    var (vy1, vy2) := Ends(y);
    var left := Min(vx1, vx2);
    var right := Max(vx1, vx2);
    var top := Min(vy1, vy2);
    var bottom := Max(vy1, vy2);
    Rect(left, top, Max(0, right - left), Max(0, bottom - top))
  }

  function Min(a: int, b: int): int { if a <= b then a else b }

  function Max(a: int, b: int): int { if a >= b then a else b }

  /** The rectangle does not depend on the order the edges are given in; a single point gives an empty box. */
  lemma VirtualRectSymmetric(x1: int, x2: int, y1: int, y2: int)
    ensures VirtualRect(Span(x1, x2), Span(y1, y2)) == VirtualRect(Span(x2, x1), Span(y2, y1))
    ensures VirtualRect(Point(x1), Point(y1)) == Rect(x1, y1, 0, 0)
  {
  }
}

=== FILE: nested_gitignore.dfy ===
/**
 * Expansion of a nested `.gitignore` into root-relative glob patterns: every
 * pattern line of the file becomes one pattern prefixed with the file's
 * directory (relative to the repository root), in line order. File contents
 * and the directory are inputs; reading the file is not modelled.
 */
module NestedGitignore {
  import opened Options
  import opened Strings
  import opened PosixPath
  import opened GitignoreLine

  /** `normalizePath`: every platform separator `sep` becomes `/`, nothing else changes. */
  function NormalizePath(filePath: string, sep: char): (r: string)
    ensures |r| == |filePath|
    ensures forall i :: 0 <= i < |r| ==> r[i] == (if filePath[i] == sep then '/' else filePath[i])
  {
    JoinSplitIsReplace(filePath, sep, '/');
    Join(Split(filePath, sep), '/')
  }

  /** Normalizing a normalized path changes nothing, whatever the separator. */
  lemma NormalizePathIdempotent(filePath: string, sep: char)
    ensures NormalizePath(NormalizePath(filePath, sep), sep) == NormalizePath(filePath, sep)
  {
  }

  /** A normalized path holds no platform separator unless that separator is `/` itself. */
  lemma NormalizePathRemovesSeparator(filePath: string, sep: char)
    requires sep != '/'
    ensures sep !in NormalizePath(filePath, sep)
  {
    var r := NormalizePath(filePath, sep);
    assert forall i :: 0 <= i < |r| ==> r[i] != sep;
  }

  /**
   * `split(/\r?\n/)`: the pieces between line feeds, each one that ends
   * before a line feed losing one carriage return. Since `trim` removes a
   * carriage return anyway, every piece classifies exactly as the piece
   * between plain line feeds does.
   */
  function SplitLines(contents: string): (r: seq<string>)
    ensures |r| == |Split(contents, '\n')|
    ensures forall k :: 0 <= k < |r| ==>
      NormalizeGitignoreLine(r[k]) == NormalizeGitignoreLine(Split(contents, '\n')[k])
  {
    var pieces := Split(contents, '\n');
    var r := seq(|pieces|, k requires 0 <= k < |pieces| =>
      if k < |pieces| - 1 && EndsWithChar(pieces[k], '\r') then pieces[k][..|pieces[k]| - 1] else pieces[k]);
    CarriageReturnsInvisible(pieces, r);
    r
  }

  lemma CarriageReturnsInvisible(pieces: seq<string>, r: seq<string>)
    requires |r| == |pieces|
    requires forall k :: 0 <= k < |pieces| ==>
      r[k] == (if k < |pieces| - 1 && EndsWithChar(pieces[k], '\r') then pieces[k][..|pieces[k]| - 1] else pieces[k])
    ensures forall k :: 0 <= k < |r| ==> NormalizeGitignoreLine(r[k]) == NormalizeGitignoreLine(pieces[k])
  {
    forall k | 0 <= k < |r| ensures NormalizeGitignoreLine(r[k]) == NormalizeGitignoreLine(pieces[k]) {
      if k < |pieces| - 1 && EndsWithChar(pieces[k], '\r') {
        var p := pieces[k];
        assert p[|p| - 1] == '\r';
        TrimIgnoresTrailingBlank(p);
      }
    }
  }

  /** Each raw line classified by `NormalizeGitignoreLine`. */
  function Classified(rawLines: seq<string>): (r: seq<Option<NormalizedLine>>)
    ensures |r| == |rawLines|
    ensures forall k :: 0 <= k < |r| ==> r[k] == NormalizeGitignoreLine(rawLines[k])
  {
    Map(NormalizeGitignoreLine, rawLines)
  }

  /** The pattern lines of a file, in order: blank lines and comments dropped. */
  function NormalizedLines(rawLines: seq<string>): seq<NormalizedLine> {
    Values(Classified(rawLines))
  }

  /** Every pattern line is the record of some raw line, and so is representable. */
  lemma NormalizedLinesRepresentable(rawLines: seq<string>)
    ensures forall n :: n in NormalizedLines(rawLines) ==>
      Representable(n) && exists k :: 0 <= k < |rawLines| && NormalizeGitignoreLine(rawLines[k]) == Some(n)
  {
    var c := Classified(rawLines);
    ValuesMembers(c);
    forall n | n in NormalizedLines(rawLines)
      ensures Representable(n) && exists k :: 0 <= k < |rawLines| && NormalizeGitignoreLine(rawLines[k]) == Some(n)
    {
      var k :| 0 <= k < |c| && c[k] == Some(n);
      NormalizedIsRepresentable(rawLines[k]);
    }
  }

  /** The part of a pattern body after one leading `/` (the anchor) is stripped. */
  function Unanchored(line: string): string {
    if StartsWithChar(line, '/') then line[1..] else line
  }

  /** The rewrite of one pattern line: its body after the anchor, expanded under the directory prefix. */
  function ExpandLine(n: NormalizedLine, dirPrefix: string): string {
    ExpandPattern(Unanchored(n.line), n.negated, dirPrefix)
  }

  /**
   * The expansion of an unanchored body: one with a `/` is joined onto the
   * directory prefix; one without is placed under the prefix followed by a
   * `**` segment; a directory body gets `**` appended; negation becomes a
   * leading `!`.
   */
  function ExpandPattern(unanchoredLine: string, negated: bool, dirPrefix: string): (r: string)
    ensures |r| > 0
    ensures negated ==> r[0] == '!' && |r| > 1
  {
    var hasSlash := '/' in unanchoredLine;
    var isDir := EndsWithChar(unanchoredLine, '/');
    var patternBase := JoinPaths(if hasSlash then [dirPrefix, unanchoredLine] else [dirPrefix, "**", unanchoredLine]);
    var pattern := if isDir then patternBase + "**" else patternBase;
    if negated then "!" + pattern else pattern
  }

  /** The anchor is dropped: `/x` and `x` expand alike, so an anchored name still matches at any depth. */
  lemma AnchorIgnored(line: string, negated: bool, dirPrefix: string)
    requires !StartsWithChar(line, '/')
    ensures ExpandLine(NormalizedLine("/" + line, negated), dirPrefix) == ExpandLine(NormalizedLine(line, negated), dirPrefix)
  {
    assert ("/" + line)[1..] == line;
  }

  /** A negated line gives a pattern starting with `!`; a directory line gives one ending in a `**` segment. */
  lemma ExpandMarkers(u: string, negated: bool, dirPrefix: string)
    ensures negated ==> StartsWithChar(ExpandPattern(u, negated, dirPrefix), '!')
    ensures EndsWithChar(u, '/') ==> EndsWith(ExpandPattern(u, negated, dirPrefix), "/**")
  {
    if EndsWithChar(u, '/') {
      assert u[|u| - 1] in u;
      DirJoinKeepsSlash(dirPrefix, u);
      var base := JoinPaths([dirPrefix, u]);
      GlobSuffix(if negated then "!" + base else base);
      if negated {
        assert "!" + (base + "**") == ("!" + base) + "**";
      }
    }
  }

  lemma GlobSuffix(p: string)
    requires EndsWithChar(p, '/')
    ensures EndsWith(p + "**", "/**")
  {
    var r := p + "**";
    assert r[|r| - 3..] == [p[|p| - 1]] + "**";
  }

  /** Joining a path that ends with `/` gives a path that ends with `/`. */
  lemma DirJoinKeepsSlash(a: string, b: string)
    requires |b| > 0 && b[|b| - 1] == '/'
    ensures var j := JoinPaths([a, b]); j[|j| - 1] == '/'
  {
    var kept := NonEmptyArgs([a, b]);
    if a == "" {
      assert [a, b][1..] == [b];
      NonEmptyArgsKeepsAll([b]);
      assert kept == [b];
    } else {
      NonEmptyArgsKeepsAll([a, b]);
      assert Join(kept, '/') == a + ['/'] + b;
    }
  }

  function ExpandAll(lines: seq<NormalizedLine>, dirPrefix: string): (r: seq<string>)
    ensures |r| == |lines|
    ensures forall k :: 0 <= k < |r| ==> r[k] == ExpandLine(lines[k], dirPrefix)
  {
    seq(|lines|, k requires 0 <= k < |lines| => ExpandLine(lines[k], dirPrefix))
  }

  lemma NormalizedLinesSnoc(rawLines: seq<string>, i: nat)
    requires i < |rawLines|
    ensures NormalizedLines(rawLines[..i + 1]) ==
      match NormalizeGitignoreLine(rawLines[i])
      case None => NormalizedLines(rawLines[..i])
      case Some(n) => NormalizedLines(rawLines[..i]) + [n]
  {
    MapSnoc(NormalizeGitignoreLine, rawLines, i);
    ValuesSnoc(Classified(rawLines[..i]), NormalizeGitignoreLine(rawLines[i]));
  }

  lemma ExpandAllSnoc(lines: seq<NormalizedLine>, n: NormalizedLine, dirPrefix: string)
    ensures ExpandAll(lines + [n], dirPrefix) == ExpandAll(lines, dirPrefix) + [ExpandLine(n, dirPrefix)]
  {
  }

  /**
   * What `parseNestedGitignore` returns for a `.gitignore` whose directory,
   * relative to the repository root, is `dirRelative`: nothing for the root
   * itself, otherwise one expanded pattern per pattern line.
   */
  function NestedPatterns(contents: string, dirRelative: string, sep: char): seq<string> {
    if dirRelative == "" then []
    else ExpandAll(NormalizedLines(SplitLines(contents)), NormalizePath(dirRelative, sep))
  }

  /**
   * `parseNestedGitignore`, with its loop over the raw lines: the root's own
   * file gives nothing; otherwise exactly one pattern per pattern line, in
   * line order, negated exactly when the line is.
   */
  method ParseNestedGitignore(contents: string, dirRelative: string, sep: char) returns (patterns: seq<string>)
    ensures dirRelative == "" ==> patterns == []
    ensures dirRelative != "" ==> |patterns| == |NormalizedLines(SplitLines(contents))|
    ensures dirRelative != "" ==> forall k :: 0 <= k < |patterns| ==>
      patterns[k] == ExpandLine(NormalizedLines(SplitLines(contents))[k], NormalizePath(dirRelative, sep))
    ensures patterns == NestedPatterns(contents, dirRelative, sep)
  {
    if dirRelative == "" {
      return [];
    }
    var dirPrefix := NormalizePath(dirRelative, sep);
    var rawLines := SplitLines(contents);
    patterns := [];
    var i := 0;
    while i < |rawLines|
      invariant 0 <= i <= |rawLines|
      invariant patterns == ExpandAll(NormalizedLines(rawLines[..i]), dirPrefix)
    {
      var normalized := NormalizeGitignoreLine(rawLines[i]);
      NormalizedLinesSnoc(rawLines, i);
      if normalized.Some? {
        ExpandAllSnoc(NormalizedLines(rawLines[..i]), normalized.value, dirPrefix);
        patterns := patterns + [ExpandLine(normalized.value, dirPrefix)];
      }
      i := i + 1;
    }
    assert rawLines[..i] == rawLines;
  }

  /** No segment of `u` climbs to the parent directory. */
  predicate NoParentSegment(u: string) {
    var segs := Split(u, '/');
    forall k :: 0 <= k < |segs| ==> segs[k] != ".."
  }

  /**
   * A pattern is negated (starts with `!`) exactly when its line was, as long
   * as the directory name does not itself start with `!` and the body does not
   * climb out of the directory with `..` (which can expose a `!` of the body).
   */
  lemma NegationPreserved(u: string, negated: bool, dirPrefix: string)
    requires dirPrefix != "" && dirPrefix[0] != '!' && IsPlainPath(dirPrefix)
    requires NoParentSegment(u)
    ensures var r := ExpandPattern(u, negated, dirPrefix); |r| > 0 && (r[0] == '!' <==> negated)
  {
    if '/' in u {
      JoinKeepsPlainHead(dirPrefix, u);
    } else {
      JoinKeepsPlainHeadGlob(dirPrefix, u);
    }
  }

  /**
   * The case `NegationPreserved` excludes: under a directory whose name starts
   * with `!`, a plain name that was not negated still yields a pattern that
   * starts with `!`, which the consumer reads as a negation.
   */
  lemma BangDirectoryNegates(u: string, dirPrefix: string)
    requires IsPlainPath(dirPrefix) && StartsWithChar(dirPrefix, '!')
    requires '/' !in u && IsPlainSegment(u)
    ensures StartsWithChar(ExpandPattern(u, false, dirPrefix), '!')
  {
    ExpandName(u, false, dirPrefix);
  }

  /** `path.posix.join(a, u)` for a plain `a` starts as `a` does when `u` has no `..`. */
  lemma JoinKeepsPlainHead(a: string, u: string)
    requires IsPlainPath(a) && NoParentSegment(u)
    ensures var j := JoinPaths([a, u]); a != "" && |j| > 0 && j[0] == a[0]
  {
    PlainNonEmpty(a);
    var joined := if u == "" then a else a + "/" + u;
    assert JoinPaths([a, u]) == Normalize(joined) by {
      if u == "" {
        assert [a, u][1..] == [u];
        assert [u][1..] == [];
        assert NonEmptyArgs([u]) == [];
        assert NonEmptyArgs([a, u]) == [a] + NonEmptyArgs([u]);
      } else {
        NonEmptyArgsKeepsAll([a, u]);
        assert Join([a, u], '/') == a + ['/'] + u == a + "/" + u;
      }
    }
    NormalizeKeepsPlainHead(a, u);
  }

  /** `path.posix.join(a, "**", u)` for a plain `a` starts as `a` does when `u` has no `..`. */
  lemma JoinKeepsPlainHeadGlob(a: string, u: string)
    requires IsPlainPath(a) && NoParentSegment(u)
    ensures var j := JoinPaths([a, "**", u]); a != "" && |j| > 0 && j[0] == a[0]
  {
    PlainNonEmpty(a);
    PlainSegmentIsPlainPath("**");
    PlainConcat(a, "**");
    var a' := a + "/" + "**";
    assert a'[0] == a[0];
    if u == "" {
      DropTrailingEmptyArg(a, "**");
      assert Join([a, "**"], '/') == a';
      NormalizePlain(a');
    } else {
      JoinThree(a, "**", u);
      assert a + "/" + "**" + "/" + u == a' + "/" + u;
      NormalizeKeepsPlainHead(a', u);
    }
  }

  /** Normalizing `a/u` (or `a` alone for an empty `u`) keeps the first character of a plain `a` when `u` has no `..`. */
  lemma NormalizeKeepsPlainHead(a: string, u: string)
    requires IsPlainPath(a) && NoParentSegment(u)
    ensures var n := Normalize(if u == "" then a else a + "/" + u); a != "" && |n| > 0 && n[0] == a[0]
  {
    PlainNonEmpty(a);
    var sa := Split(a, '/');
    assert Canonical(sa);
    SplitEnds(a, '/');
    if u == "" {
      NormalizePlain(a);
    } else {
      var p := a + "/" + u;
      assert p == a + ['/'] + u;
      SplitConcat(a, u, '/');
      var su := Split(u, '/');
      assert p[0] == a[0] && p[0] != '/';
      ResolveCanonical([], sa, true);
      assert [] + sa == sa;
      ResolveAppend([], sa, su, true);
      ResolveKeepsStack(sa, su);
      var segs := Resolve([], Split(p, '/'), true);
      assert |segs| >= 1 && segs[0] == sa[0];
      assert Join(segs, '/')[0] == sa[0][0] by {
        if |segs| > 1 {
          assert Join(segs, '/') == segs[0] + ['/'] + Join(segs[1..], '/');
        }
      }
      assert sa[0][0] == a[0] by {
        if |sa| > 1 {
          assert Join(sa, '/') == sa[0] + ['/'] + Join(sa[1..], '/');
        }
      }
    }
  }

  /** Without `..` segments the walk never pops, so what was kept stays in front. */
  lemma {:induction false} ResolveKeepsStack(stack: seq<string>, segs: seq<string>)
    requires forall k :: 0 <= k < |segs| ==> segs[k] != ".."
    ensures |Resolve(stack, segs, true)| >= |stack|
    ensures Resolve(stack, segs, true)[..|stack|] == stack
    decreases |segs|
  {
    if |segs| > 0 {
      var seg := segs[0];
      if seg == "" || seg == "." {
        ResolveKeepsStack(stack, segs[1..]);
      } else {
        ResolveKeepsStack(stack + [seg], segs[1..]);
        var r := Resolve(stack + [seg], segs[1..], true);
        assert r[..|stack|] == r[..|stack| + 1][..|stack|];
      }
    }
  }

  /** A slash-free name matches at any depth below the directory. */
  lemma ExpandName(u: string, negated: bool, dirPrefix: string)
    requires IsPlainPath(dirPrefix)
    requires '/' !in u && IsPlainSegment(u)
    ensures ExpandPattern(u, negated, dirPrefix) == (if negated then "!" else "") + dirPrefix + "/**/" + u
  {
    PlainSegmentIsPlainPath(u);
    JoinPathsPlainGlob(dirPrefix, u);
    NameBase(u, negated, dirPrefix);
    NameShape(dirPrefix, u, negated);
  }

  lemma NameShape(p: string, u: string, negated: bool)
    ensures var b := p + "/**/" + u;
      (if negated then "!" + b else b) == (if negated then "!" else "") + p + "/**/" + u
  {
    if !negated {
      assert "" + p + "/**/" + u == p + "/**/" + u;
    }
  }

  /** A slash-free, non-empty body goes through the three-argument join and nothing is appended. */
  lemma NameBase(u: string, negated: bool, dirPrefix: string)
    requires '/' !in u && u != ""
    ensures var b := JoinPaths([dirPrefix, "**", u]);
      ExpandPattern(u, negated, dirPrefix) == if negated then "!" + b else b
  {
    EndsWithCharIn(u, '/');
  }

  lemma EndsWithCharIn(s: string, c: char)
    ensures EndsWithChar(s, c) ==> c in s
  {
    if EndsWithChar(s, c) {
      assert s[|s| - 1] in s;
    }
  }

  /** A body with a `/` but none at its end goes through the two-argument join and nothing is appended. */
  lemma PathBase(u: string, negated: bool, dirPrefix: string)
    requires '/' in u && !EndsWithChar(u, '/')
    ensures var b := JoinPaths([dirPrefix, u]);
      ExpandPattern(u, negated, dirPrefix) == if negated then "!" + b else b
  {
  }

  /** A directory body `q/` goes through the two-argument join and gets `**` appended. */
  lemma DirBase(q: string, negated: bool, dirPrefix: string)
    ensures var b := JoinPaths([dirPrefix, q + "/"]) + "**";
      ExpandPattern(q + "/", negated, dirPrefix) == if negated then "!" + b else b
  {
    var u := q + "/";
    assert u[|u| - 1] == '/';
  }

  /** A plain path does not end with `/`. */
  lemma PlainNoTrailingSlash(u: string)
    requires IsPlainPath(u)
    ensures !EndsWithChar(u, '/')
  {
    SplitEnds(u, '/');
  }

  /** A body with an inner `/` is taken relative to the directory and matches only there. */
  lemma ExpandPath(u: string, negated: bool, dirPrefix: string)
    requires IsPlainPath(dirPrefix)
    requires '/' in u && IsPlainPath(u)
    ensures ExpandPattern(u, negated, dirPrefix) == (if negated then "!" else "") + dirPrefix + "/" + u
  {
    PlainNoTrailingSlash(u);
    PathBase(u, negated, dirPrefix);
    JoinPathsPlain(dirPrefix, u);
    PathShape(dirPrefix, u, negated);
  }

  lemma PathShape(p: string, u: string, negated: bool)
    ensures var b := p + "/" + u;
      (if negated then "!" + b else b) == (if negated then "!" else "") + p + "/" + u
  {
    if !negated {
      assert "" + p + "/" + u == p + "/" + u;
    }
  }

  /** A directory body `q/` matches everything below the directory's `q`. */
  lemma ExpandDir(q: string, negated: bool, dirPrefix: string)
    requires IsPlainPath(dirPrefix) && IsPlainPath(q)
    ensures ExpandPattern(q + "/", negated, dirPrefix) == (if negated then "!" else "") + dirPrefix + "/" + q + "/**"
  {
    DirBase(q, negated, dirPrefix);
    JoinPathsPlainDir(dirPrefix, q);
    DirShape(dirPrefix, q, negated);
  }

  lemma DirShape(p: string, q: string, negated: bool)
    ensures var b := p + "/" + q + "/" + "**";
      (if negated then "!" + b else b) == (if negated then "!" else "") + p + "/" + q + "/**"
  {
    var target := p + "/" + q + "/**";
    assert p + "/" + q + "/" + "**" == target;
    if negated {
      assert "!" + target == "!" + p + "/" + q + "/**";
    } else {
      assert "" + p + "/" + q + "/**" == target;
    }
  }

  /** Lines that classify alike give the same pattern lines. */
  lemma NormalizedLinesAlike(xs: seq<string>, ys: seq<string>)
    requires |xs| == |ys|
    requires forall k :: 0 <= k < |xs| ==> NormalizeGitignoreLine(xs[k]) == NormalizeGitignoreLine(ys[k])
    ensures NormalizedLines(xs) == NormalizedLines(ys)
  {
    MapAlike(NormalizeGitignoreLine, xs, ys);
  }

  /** Every line of `lines` with a carriage return appended. */
  function WithCarriageReturns(lines: seq<string>): (r: seq<string>)
    ensures |r| == |lines|
    ensures forall k :: 0 <= k < |r| ==> r[k] == lines[k] + "\r"
  {
    seq(|lines|, k requires 0 <= k < |lines| => lines[k] + "\r")
  }

  /** The pattern lines of a file are those of its lines, whether or not a line ends with a carriage return. */
  lemma NormalizedLinesOfFile(lines: seq<string>)
    requires |lines| >= 1
    requires forall k :: 0 <= k < |lines| ==> '\n' !in lines[k]
    ensures NormalizedLines(SplitLines(Join(lines, '\n'))) == NormalizedLines(lines)
  {
    SplitJoin(lines, '\n');
    NormalizedLinesAlike(SplitLines(Join(lines, '\n')), lines);
  }

  lemma CarriageReturnLinesAlike(lines: seq<string>)
    ensures NormalizedLines(WithCarriageReturns(lines)) == NormalizedLines(lines)
  {
    var crlf := WithCarriageReturns(lines);
    forall k | 0 <= k < |lines|
      ensures NormalizeGitignoreLine(crlf[k]) == NormalizeGitignoreLine(lines[k])
    {
      var c := crlf[k];
      assert c[..|c| - 1] == lines[k];
      TrimIgnoresTrailingBlank(c);
    }
    NormalizedLinesAlike(crlf, lines);
  }

  /** A file saved with CRLF line ends yields the same patterns as with LF line ends. */
  lemma CrlfSameAsLf(lines: seq<string>, dirRelative: string, sep: char)
    requires |lines| >= 1
    requires forall k :: 0 <= k < |lines| ==> '\n' !in lines[k]
    ensures NestedPatterns(Join(WithCarriageReturns(lines), '\n'), dirRelative, sep)
         == NestedPatterns(Join(lines, '\n'), dirRelative, sep)
  {
    var crlf := WithCarriageReturns(lines);
    assert forall k :: 0 <= k < |crlf| ==> '\n' !in crlf[k];
    NormalizedLinesOfFile(crlf);
    NormalizedLinesOfFile(lines);
    CarriageReturnLinesAlike(lines);
  }

  /** For a file written line by line, the patterns are the expansions of its lines' records. */
  lemma PatternsOfLines(lines: seq<string>, dirRelative: string, sep: char)
    requires |lines| >= 1 && dirRelative != ""
    requires forall k :: 0 <= k < |lines| ==> '\n' !in lines[k]
    ensures NestedPatterns(Join(lines, '\n'), dirRelative, sep)
         == ExpandAll(NormalizedLines(lines), NormalizePath(dirRelative, sep))
  {
    NormalizedLinesOfFile(lines);
  }

  /** With `/` as the platform separator, `normalizePath` changes nothing. */
  lemma NormalizePathPosix(filePath: string)
    ensures NormalizePath(filePath, '/') == filePath
  {
  }

  /**
   * A file or directory name as the repository's tests use them: a plain
   * segment on one line, without whitespace at either end and not starting
   * with a character `.gitignore` treats specially.
   */
  predicate SimpleName(x: string) {
    && IsPlainSegment(x) && '/' !in x && '\n' !in x && IsTrimmed(x)
    && x[0] != '#' && x[0] != '!' && x[0] != '\\'
  }

  lemma SimpleRecord(x: string)
    requires SimpleName(x)
    ensures NormalizeGitignoreLine(x) == Some(NormalizedLine(x, false))
  {
    PlainRoundTrip(x);
  }

  lemma AnchoredRecord(x: string)
    requires SimpleName(x)
    ensures NormalizeGitignoreLine("/" + x) == Some(NormalizedLine("/" + x, false))
  {
    var l := "/" + x;
    assert l[|l| - 1] == x[|x| - 1];
    PlainRoundTrip(l);
  }

  lemma DirLineRecord(d: string)
    requires SimpleName(d)
    ensures NormalizeGitignoreLine(d + "/") == Some(NormalizedLine(d + "/", false))
  {
    var l := d + "/";
    assert l[0] == d[0];
    PlainRoundTrip(l);
  }

  /** A body without an anchor expands as it stands. */
  lemma ExpandLineUnanchored(u: string, negated: bool, p: string)
    requires !StartsWithChar(u, '/')
    ensures ExpandLine(NormalizedLine(u, negated), p) == ExpandPattern(u, negated, p)
  {
  }

  /** An anchored body expands as the body after the anchor. */
  lemma ExpandLineAnchored(u: string, negated: bool, p: string)
    ensures ExpandLine(NormalizedLine("/" + u, negated), p) == ExpandPattern(u, negated, p)
  {
    assert ("/" + u)[1..] == u;
  }

  lemma AnchoredExpansion(x: string, p: string)
    requires IsPlainSegment(x) && '/' !in x && IsPlainPath(p)
    ensures ExpandLine(NormalizedLine("/" + x, false), p) == p + "/**/" + x
  {
    ExpandLineAnchored(x, false, p);
    ExpandName(x, false, p);
  }

  lemma NameExpansion(y: string, p: string)
    requires IsPlainSegment(y) && '/' !in y && IsPlainPath(p)
    ensures ExpandLine(NormalizedLine(y, false), p) == p + "/**/" + y
  {
    assert y[0] in y;
    ExpandLineUnanchored(y, false, p);
    ExpandName(y, false, p);
  }

  lemma DirExpansion(d: string, p: string)
    requires IsPlainSegment(d) && '/' !in d && IsPlainPath(p)
    ensures ExpandLine(NormalizedLine(d + "/", false), p) == p + "/" + d + "/**"
  {
    PlainSegmentIsPlainPath(d);
    assert (d + "/")[0] == d[0];
    ExpandLineUnanchored(d + "/", false, p);
    ExpandDir(d, false, p);
  }

  /** Three raw lines that are all pattern lines give their three records. */
  lemma ThreeRecords(a: string, b: string, c: string, na: NormalizedLine, nb: NormalizedLine, nc: NormalizedLine)
    requires NormalizeGitignoreLine(a) == Some(na)
    requires NormalizeGitignoreLine(b) == Some(nb)
    requires NormalizeGitignoreLine(c) == Some(nc)
    ensures NormalizedLines([a, b, c]) == [na, nb, nc]
  {
    MapThree(NormalizeGitignoreLine, a, b, c);
    ValuesThree(na, nb, nc);
  }

  /**
   * The repository's anchored-pattern test, for any names: a `.gitignore` in
   * the directory `p` holding the lines `/x`, `y` and `d/` gives, in order,
   * `x` and `y` each below `p` at any depth, and everything below `p`'s `d`.
   * The anchored name is placed at any depth just like the unanchored one.
   */
  lemma AnchoredFixture(p: string, x: string, y: string, d: string)
    requires IsPlainPath(p) && SimpleName(x) && SimpleName(y) && SimpleName(d)
    ensures NestedPatterns(Join(["/" + x, y, d + "/"], '\n'), p, '/')
         == [p + "/**/" + x, p + "/**/" + y, p + "/" + d + "/**"]
  {
    var lines := ["/" + x, y, d + "/"];
    PlainNonEmpty(p);
    assert '\n' !in "/" + x && '\n' !in d + "/";
    PatternsOfLines(lines, p, '/');
    NormalizePathPosix(p);
    FixtureRecords(x, y, d);
    FixtureExpansions(p, x, y, d);
  }

  lemma FixtureRecords(x: string, y: string, d: string)
    requires SimpleName(x) && SimpleName(y) && SimpleName(d)
    ensures NormalizedLines(["/" + x, y, d + "/"])
         == [NormalizedLine("/" + x, false), NormalizedLine(y, false), NormalizedLine(d + "/", false)]
  {
    AnchoredRecord(x);
    SimpleRecord(y);
    DirLineRecord(d);
    ThreeRecords("/" + x, y, d + "/", NormalizedLine("/" + x, false), NormalizedLine(y, false), NormalizedLine(d + "/", false));
  }

  lemma ExpandThree(na: NormalizedLine, nb: NormalizedLine, nc: NormalizedLine, p: string)
    ensures ExpandAll([na, nb, nc], p) == [ExpandLine(na, p), ExpandLine(nb, p), ExpandLine(nc, p)]
  {
  }

  lemma FixtureExpansions(p: string, x: string, y: string, d: string)
    requires IsPlainPath(p) && SimpleName(x) && SimpleName(y) && SimpleName(d)
    ensures ExpandAll([NormalizedLine("/" + x, false), NormalizedLine(y, false), NormalizedLine(d + "/", false)], p)
         == [p + "/**/" + x, p + "/**/" + y, p + "/" + d + "/**"]
  {
    ExpandThree(NormalizedLine("/" + x, false), NormalizedLine(y, false), NormalizedLine(d + "/", false), p);
    AnchoredExpansion(x, p);
    NameExpansion(y, p);
    DirExpansion(d, p);
  }

  /** The repository's root-file test: the root's own `.gitignore` contributes nothing here. */
  lemma RootFixture(contents: string, sep: char)
    ensures NestedPatterns(contents, "", sep) == []
  {
  }
}

=== FILE: options.dfy ===
/** The JavaScript `null` / `undefined` alternative, as a value. */
module Options {

  datatype Option<+T> = None | Some(value: T) {

    /** The encapsulated value, or `default` for `None` (JavaScript's `??`). */
    function Coalesce(default: T): T {
      match this
      case Some(v) => v
      case None => default
    }
  }

  /** The present values of `xs`, in order: a `continue` past every `null`. */
  function Values<T(==,!new)>(xs: seq<Option<T>>): (r: seq<T>)
    ensures |r| <= |xs|
  {
    if |xs| == 0 then []
    else
      var before := Values(xs[..|xs| - 1]);
      match xs[|xs| - 1]
      case None => before
      case Some(v) => before + [v]
  }

  /** A value is kept exactly when it is present somewhere in `xs`. */
  lemma {:induction false} ValuesMembers<T(!new)>(xs: seq<Option<T>>)
    ensures forall v :: v in Values(xs) <==> Some(v) in xs
  {
    if |xs| > 0 {
      var init := xs[..|xs| - 1];
      ValuesMembers(init);
      assert xs == init + [xs[|xs| - 1]];
    }
  }

  lemma ValuesSnoc<T(!new)>(xs: seq<Option<T>>, x: Option<T>)
    ensures Values(xs + [x]) == match x case None => Values(xs) case Some(v) => Values(xs) + [v]
  {
    assert (xs + [x])[..|xs|] == xs;
  }

  /** With nothing missing, the values line up one for one with the entries. */
  lemma {:induction false} ValuesAllPresent<T(!new)>(xs: seq<Option<T>>)
    requires forall k :: 0 <= k < |xs| ==> xs[k].Some?
    ensures |Values(xs)| == |xs|
    ensures forall k :: 0 <= k < |xs| ==> Values(xs)[k] == xs[k].value
  {
    if |xs| > 0 {
      var init := xs[..|xs| - 1];
      ValuesAllPresent(init);
      ValuesSnoc(init, xs[|xs| - 1]);
      assert init + [xs[|xs| - 1]] == xs;
    }
  }

  /** `f` applied to every element, in order: `Array.prototype.map`. */
  function Map<A, B>(f: A -> B, xs: seq<A>): (r: seq<B>)
    ensures |r| == |xs|
    ensures forall k :: 0 <= k < |xs| ==> r[k] == f(xs[k])
  {
    seq(|xs|, k requires 0 <= k < |xs| => f(xs[k]))
  }

  lemma MapSnoc<A, B>(f: A -> B, xs: seq<A>, i: nat)
    requires i < |xs|
    ensures Map(f, xs[..i + 1]) == Map(f, xs[..i]) + [f(xs[i])]
  {
  }

  /** Elements that `f` cannot tell apart give the same image. */
  lemma MapAlike<A, B>(f: A -> B, xs: seq<A>, ys: seq<A>)
    requires |xs| == |ys|
    requires forall k :: 0 <= k < |xs| ==> f(xs[k]) == f(ys[k])
    ensures Map(f, xs) == Map(f, ys)
  {
  }

  lemma MapThree<A, B>(f: A -> B, a: A, b: A, c: A)
    ensures Map(f, [a, b, c]) == [f(a), f(b), f(c)]
  {
  }

  lemma ValuesThree<T(!new)>(a: T, b: T, c: T)
    ensures Values([Some(a), Some(b), Some(c)]) == [a, b, c]
  {
    ValuesAllPresent([Some(a), Some(b), Some(c)]);
  }
}

=== FILE: posix_path.dfy ===
/**
 * Node's `path.posix.join` and the `path.posix.normalize` it ends with, as
 * Node documents them: zero-length arguments are ignored, the rest are joined
 * with `/`, runs of separators collapse, `.` segments vanish, `..` removes the
 * segment before it (or stays, at the front of a relative path), and a
 * trailing separator is kept.
 */
module PosixPath {
  import opened Strings

  /** A segment list `normalize` can produce: no empty or `.` segments, no `/` inside a segment, `..` only at the front. */
  predicate Canonical(segs: seq<string>) {
    forall k :: 0 <= k < |segs| ==>
      && segs[k] != "" && segs[k] != "." && '/' !in segs[k]
      && (segs[k] == ".." ==> forall j :: 0 <= j < k ==> segs[j] == "..")
  }

  /**
   * The segment walk of Node's `normalizeString`: `stack` holds the segments
   * kept so far; `..` pops a kept segment that is not itself `..`, and is kept
   * only when the path may climb above its start (a relative path).
   */
  function Resolve(stack: seq<string>, segs: seq<string>, allowAboveRoot: bool): seq<string>
    decreases |segs|
  {
    if |segs| == 0 then stack
    else
      var seg := segs[0];
      if seg == "" || seg == "." then
        Resolve(stack, segs[1..], allowAboveRoot)
      else if seg == ".." then
        if |stack| > 0 && stack[|stack| - 1] != ".." then
          Resolve(stack[..|stack| - 1], segs[1..], allowAboveRoot)
        else if allowAboveRoot then
          Resolve(stack + [".."], segs[1..], allowAboveRoot)
        else
          Resolve(stack, segs[1..], allowAboveRoot)
      else
        Resolve(stack + [seg], segs[1..], allowAboveRoot)
  }

  /**
   * The walk keeps its stack canonical: fed pieces without `/`, it never
   * keeps an empty or `.` segment, keeps `..` only in front, and keeps none
   * at all for an absolute path.
   */
  lemma {:induction false} ResolveWellFormed(stack: seq<string>, segs: seq<string>, a: bool)
    requires Canonical(stack) && (!a ==> ".." !in stack)
    requires forall k :: 0 <= k < |segs| ==> '/' !in segs[k]
    ensures var r := Resolve(stack, segs, a); Canonical(r) && (!a ==> ".." !in r)
    decreases |segs|
  {
    if |segs| > 0 {
      var seg := segs[0];
      assert forall k :: 0 <= k < |segs[1..]| ==> segs[1..][k] == segs[k + 1];
      if seg == "" || seg == "." {
        ResolveWellFormed(stack, segs[1..], a);
      } else if seg == ".." {
        if |stack| > 0 && stack[|stack| - 1] != ".." {
          var st := stack[..|stack| - 1];
          assert forall k :: 0 <= k < |st| ==> st[k] == stack[k];
          ResolveWellFormed(st, segs[1..], a);
        } else if a {
          var st := stack + [".."];
          assert forall k :: 0 <= k < |stack| ==> stack[k] == "..";
          ResolveWellFormed(st, segs[1..], a);
        } else {
          ResolveWellFormed(stack, segs[1..], a);
        }
      } else {
        var st := stack + [seg];
        assert forall k :: 0 <= k < |stack| ==> st[k] == stack[k];
        ResolveWellFormed(st, segs[1..], a);
      }
    }
  }

  /** `path.posix.normalize`: never empty; `NormalizeEnds` says what happens at either end. */
  function Normalize(path: string): (r: string)
    ensures r != ""
  {
    if path == "" then "."
    else
      var isAbsolute := path[0] == '/';
      var trailingSeparator := path[|path| - 1] == '/';
      var segs := Resolve([], Split(path, '/'), !isAbsolute);
      var body := Join(segs, '/');
      if body == "" then
        (if isAbsolute then "/" else if trailingSeparator then "./" else ".")
      else
        (if isAbsolute then "/" else "") + body + (if trailingSeparator then "/" else "")
  }

  /**
   * The result is absolute exactly when the input is, and keeps a trailing
   * `/` (the bare root `/` aside, it ends with `/` only when the input does).
   */
  lemma NormalizeEnds(path: string)
    ensures var r := Normalize(path);
      && (|path| > 0 ==> (r[0] == '/' <==> path[0] == '/'))
      && (|path| > 0 && path[|path| - 1] == '/' ==> r[|r| - 1] == '/')
      && (|path| > 0 && r != "/" && r[|r| - 1] == '/' ==> path[|path| - 1] == '/')
  {
    if path != "" {
      var segs := Resolve([], Split(path, '/'), path[0] != '/');
      ResolveWellFormed([], Split(path, '/'), path[0] != '/');
      if Join(segs, '/') != "" {
        JoinEnds(segs);
      }
    }
  }

  /** The arguments `path.posix.join` keeps: the non-empty ones, in order. */
  function NonEmptyArgs(args: seq<string>): (r: seq<string>)
    ensures forall k :: 0 <= k < |r| ==> r[k] != ""
    ensures forall a :: a in r <==> a in args && a != ""
  {
    if |args| == 0 then []
    else if args[0] == "" then NonEmptyArgs(args[1..])
    else [args[0]] + NonEmptyArgs(args[1..])
  }

  lemma NonEmptyArgsKeepsAll(args: seq<string>)
    requires forall k :: 0 <= k < |args| ==> args[k] != ""
    ensures NonEmptyArgs(args) == args
  {
    if |args| > 0 {
      NonEmptyArgsKeepsAll(args[1..]);
      assert [args[0]] + args[1..] == args;
    }
  }

  /** `path.posix.join(...args)`: the result is never empty; `JoinPathsNormalized` says it is already in normal form. */
  function JoinPaths(args: seq<string>): (r: string)
    ensures r != ""
  {
    var kept := NonEmptyArgs(args);
    if |kept| == 0 then "." else Normalize(Join(kept, '/'))
  }

  /** What `path.posix.join` returns is left alone by `path.posix.normalize`. */
  lemma JoinPathsNormalized(args: seq<string>)
    ensures Normalize(JoinPaths(args)) == JoinPaths(args)
  {
    var kept := NonEmptyArgs(args);
    if |kept| == 0 {
      NormalizeIdempotent("");
    } else {
      NormalizeIdempotent(Join(kept, '/'));
    }
  }

  /** A joined canonical, non-empty segment list neither starts nor ends with `/`. */
  lemma {:induction false} JoinEnds(segs: seq<string>)
    requires Canonical(segs)
    requires Join(segs, '/') != ""
    ensures var s := Join(segs, '/'); s[0] != '/' && s[|s| - 1] != '/'
  {
    var s := Join(segs, '/');
    if |segs| == 1 {
    } else {
      assert Canonical(segs[1..]) by {
        forall k | 0 <= k < |segs[1..]| ensures segs[1..][k] == segs[k + 1] { }
      }
      assert segs[0] != "" && '/' !in segs[0];
      assert s[0] == segs[0][0];
      var rest := Join(segs[1..], '/');
      assert |rest| > 0 by {
        assert segs[1..][0] == segs[1] != "";
        if |segs[1..]| > 1 {
          assert rest == segs[1] + ['/'] + Join(segs[2..], '/') by {
            assert segs[1..][1..] == segs[2..];
          }
        }
      }
      JoinEnds(segs[1..]);
      assert s[|s| - 1] == rest[|rest| - 1];
    }
  }

  /** Resolving continues where an earlier resolution stopped. */
  lemma {:induction false} ResolveAppend(stack: seq<string>, xs: seq<string>, ys: seq<string>, a: bool)
    ensures Resolve(stack, xs + ys, a) == Resolve(Resolve(stack, xs, a), ys, a)
    decreases |xs|
  {
    if |xs| > 0 {
      assert (xs + ys)[0] == xs[0];
      assert (xs + ys)[1..] == xs[1..] + ys;
      var seg := xs[0];
      if seg == "" || seg == "." {
        ResolveAppend(stack, xs[1..], ys, a);
      } else if seg == ".." {
        if |stack| > 0 && stack[|stack| - 1] != ".." {
          ResolveAppend(stack[..|stack| - 1], xs[1..], ys, a);
        } else if a {
          ResolveAppend(stack + [".."], xs[1..], ys, a);
        } else {
          ResolveAppend(stack, xs[1..], ys, a);
        }
      } else {
        ResolveAppend(stack + [seg], xs[1..], ys, a);
      }
    } else {
      assert xs + ys == ys;
    }
  }

  /** A list that is already canonical passes through the walk unchanged. */
  lemma {:induction false} ResolveCanonical(stack: seq<string>, segs: seq<string>, a: bool)
    requires Canonical(stack + segs) && (!a ==> ".." !in stack + segs)
    ensures Resolve(stack, segs, a) == stack + segs
    decreases |segs|
  {
    var all := stack + segs;
    assert forall k :: 0 <= k < |stack| ==> stack[k] == all[k];
    assert forall k :: 0 <= k < |segs| ==> segs[k] == all[|stack| + k];
    if |segs| > 0 {
      var seg := segs[0];
      assert seg == all[|stack|];
      assert stack + [seg] + segs[1..] == all;
      if seg == ".." {
        assert a;
        if |stack| > 0 {
          assert all[|stack| - 1] == "..";
        }
      }
      ResolveCanonical(stack + [seg], segs[1..], a);
    }
  }

  /** Empty segments contribute nothing to the walk. */
  lemma ResolveBlank(stack: seq<string>, a: bool)
    ensures Resolve(stack, [""], a) == stack
  {
  }

  /** Normalizing twice is normalizing once. */
  lemma NormalizeIdempotent(path: string)
    ensures Normalize(Normalize(path)) == Normalize(path)
  {
    var r := Normalize(path);
    if path == "" {
      assert Split(".", '/') == ["."];
      assert Resolve([], ["."], true) == [];
    } else {
      var isAbsolute := path[0] == '/';
      var trailing := path[|path| - 1] == '/';
      var segs := Resolve([], Split(path, '/'), !isAbsolute);
      ResolveWellFormed([], Split(path, '/'), !isAbsolute);
      var body := Join(segs, '/');
      if body == "" {
        if isAbsolute {
          assert r == "/" == "" + ['/'] + "";
          SplitConcat("", "", '/');
          assert Resolve([], ["", ""], false) == [];
        } else if trailing {
          assert r == "./" == "." + ['/'] + "";
          SplitConcat(".", "", '/');
          assert Split(".", '/') == ["."];
          assert Resolve([], [".", ""], true) == [];
        } else {
          assert Split(".", '/') == ["."];
          assert Resolve([], ["."], true) == [];
        }
      } else {
        NormalizeNonEmptyBody(segs, isAbsolute, trailing);
      }
    }
  }

  /** The idempotence case where something survived normalization. */
  lemma NormalizeNonEmptyBody(segs: seq<string>, isAbsolute: bool, trailing: bool)
    requires Canonical(segs) && (isAbsolute ==> ".." !in segs)
    requires Join(segs, '/') != ""
    ensures var r := (if isAbsolute then "/" else "") + Join(segs, '/') + (if trailing then "/" else "");
      Normalize(r) == r
  {
    var body := Join(segs, '/');
    var r := (if isAbsolute then "/" else "") + body + (if trailing then "/" else "");
    FramedSplit(segs, isAbsolute, trailing);
    FramedResolve(segs, isAbsolute, trailing);
    JoinEnds(segs);
    assert r[0] == '/' <==> isAbsolute;
    assert r[|r| - 1] == '/' <==> trailing;
  }

  /** The pieces of a framed body: an empty piece for each framing `/`. */
  lemma FramedSplit(segs: seq<string>, isAbsolute: bool, trailing: bool)
    requires Canonical(segs)
    requires Join(segs, '/') != ""
    ensures var body := Join(segs, '/');
      var r := (if isAbsolute then "/" else "") + body + (if trailing then "/" else "");
      Split(r, '/') == (if isAbsolute then [""] else []) + segs + (if trailing then [""] else [])
  {
    var body := Join(segs, '/');
    assert |segs| >= 1;
    SplitJoin(segs, '/');
    var mid := if isAbsolute then [""] + segs else segs;
    var pre := if isAbsolute then "/" else "";
    var post := if trailing then "/" else "";
    var r := pre + body + post;
    assert Split(pre + body, '/') == mid by {
      if isAbsolute {
        assert pre + body == "" + ['/'] + body;
        SplitConcat("", body, '/');
      } else {
        assert pre + body == body;
      }
    }
    if trailing {
      assert r == (pre + body) + ['/'] + "";
      SplitConcat(pre + body, "", '/');
    } else {
      assert r == pre + body;
    }
    assert mid + (if trailing then [""] else []) == (if isAbsolute then [""] else []) + segs + (if trailing then [""] else []);
  }

  /** Framing empty pieces vanish in the walk, leaving a canonical list as it was. */
  lemma FramedResolve(segs: seq<string>, isAbsolute: bool, trailing: bool)
    requires Canonical(segs) && (isAbsolute ==> ".." !in segs)
    ensures Resolve([], (if isAbsolute then [""] else []) + segs + (if trailing then [""] else []), !isAbsolute) == segs
  {
    var mid := if isAbsolute then [""] + segs else segs;
    ResolveCanonical([], segs, !isAbsolute);
    assert [] + segs == segs;
    if isAbsolute {
      ResolveAppend([], [""], segs, false);
      assert [""] + segs == mid;
    } else {
      assert [] + segs == mid;
    }
    assert Resolve([], mid, !isAbsolute) == segs;
    if trailing {
      ResolveAppend([], mid, [""], !isAbsolute);
      ResolveBlank(segs, !isAbsolute);
      assert (if isAbsolute then [""] else []) + segs + [""] == mid + [""];
    } else {
      assert (if isAbsolute then [""] else []) + segs + [] == mid;
    }
  }

  /** A path segment with no special meaning to `normalize`. */
  predicate IsPlainSegment(seg: string) {
    seg != "" && seg != "." && seg != ".."
  }

  /** A relative path without empty, `.` or `..` segments (so no leading, trailing or doubled `/`). */
  predicate IsPlainPath(p: string) {
    var segs := Split(p, '/');
    forall k :: 0 <= k < |segs| ==> IsPlainSegment(segs[k])
  }

  lemma PlainSegmentIsPlainPath(seg: string)
    requires IsPlainSegment(seg) && '/' !in seg
    ensures IsPlainPath(seg)
  {
    SplitNoSeparator(seg, '/');
  }

  /** Where a separator at either end of a string shows up among its pieces. */
  lemma SplitEnds(q: string, d: char)
    ensures q == "" ==> Split(q, d) == [""]
    ensures |q| > 0 && q[0] == d ==> Split(q, d)[0] == ""
    ensures |q| > 0 && q[|q| - 1] == d ==> Split(q, d)[|Split(q, d)| - 1] == ""
  {
    if |q| > 0 && q[|q| - 1] == d {
      assert q == q[..|q| - 1] + [d] + "";
      SplitConcat(q[..|q| - 1], "", d);
    }
  }

  /** Two plain paths joined by one `/` form a plain path. */
  lemma PlainConcat(a: string, b: string)
    requires IsPlainPath(a) && IsPlainPath(b)
    ensures IsPlainPath(a + "/" + b)
  {
    assert a + "/" + b == a + ['/'] + b;
    SplitConcat(a, b, '/');
  }

  /** Plain paths are fixed points of `normalize`, with or without one trailing `/`. */
  lemma NormalizePlain(q: string)
    requires IsPlainPath(q)
    ensures q != ""
    ensures Normalize(q) == q
    ensures Normalize(q + "/") == q + "/"
  {
    var segs := Split(q, '/');
    assert Canonical(segs);
    SplitEnds(q, '/');
    assert Join(segs, '/') == q;
    NormalizeNonEmptyBody(segs, false, false);
    assert "" + q + "" == q;
    NormalizeNonEmptyBody(segs, false, true);
    assert "" + q + "/" == q + "/";
  }

  /** `path.posix.join(a, b)` on plain paths is `a/b`. */
  lemma JoinPathsPlain(a: string, b: string)
    requires IsPlainPath(a) && IsPlainPath(b)
    ensures JoinPaths([a, b]) == a + "/" + b
  {
    PlainNonEmpty(a);
    PlainNonEmpty(b);
    NonEmptyArgsKeepsAll([a, b]);
    assert Join([a, b], '/') == a + "/" + b;
    PlainConcat(a, b);
    NormalizePlain(a + "/" + b);
  }

  /** `path.posix.join(a, b + "/")` on plain paths is `a/b/`: the trailing separator survives. */
  lemma JoinPathsPlainDir(a: string, b: string)
    requires IsPlainPath(a) && IsPlainPath(b)
    ensures JoinPaths([a, b + "/"]) == a + "/" + b + "/"
  {
    PlainNonEmpty(a);
    NonEmptyArgsKeepsAll([a, b + "/"]);
    assert Join([a, b + "/"], '/') == (a + "/" + b) + "/";
    PlainConcat(a, b);
    NormalizePlain(a + "/" + b);
  }

  /** Three non-empty arguments are joined with two separators before normalizing. */
  lemma JoinThree(a: string, m: string, b: string)
    requires a != "" && m != "" && b != ""
    ensures JoinPaths([a, m, b]) == Normalize(a + "/" + m + "/" + b)
  {
    NonEmptyArgsKeepsAll([a, m, b]);
    assert [a, m, b][1..] == [m, b];
    assert [m, b][1..] == [b];
    assert Join([m, b], '/') == m + ['/'] + b;
    assert Join([a, m, b], '/') == a + ['/'] + (m + ['/'] + b);
    assert a + ['/'] + (m + ['/'] + b) == a + "/" + m + "/" + b;
  }

  // a, the glob segment and b joined by separators form a plain path when a and b are plain.
  lemma PlainGlob(a: string, b: string)
    requires IsPlainPath(a) && IsPlainPath(b)
    ensures IsPlainPath(a + "/**/" + b)
  {
    PlainSegmentIsPlainPath("**");
    PlainConcat(a, "**");
    PlainConcat(a + "/" + "**", b);
    assert a + "/" + "**" + "/" + b == a + "/**/" + b;
  }

  // The three arguments a, the glob segment and b are joined with separators before normalizing.
  lemma JoinGlob(a: string, b: string)
    requires a != "" && b != ""
    ensures JoinPaths([a, "**", b]) == Normalize(a + "/**/" + b)
  {
    JoinThree(a, "**", b);
    assert a + "/" + "**" + "/" + b == a + "/**/" + b;
  }

  // path.posix.join(a, '**', b) on plain paths puts the glob segment between a and b with
  // single separators.
  lemma JoinPathsPlainGlob(a: string, b: string)
    requires IsPlainPath(a) && IsPlainPath(b)
    ensures JoinPaths([a, "**", b]) == a + "/**/" + b
  {
    PlainNonEmpty(a);
    PlainNonEmpty(b);
    JoinGlob(a, b);
    PlainGlob(a, b);
    NormalizePlain(a + "/**/" + b);
  }

  // The same with a directory pattern: the trailing separator of b survives.
  lemma JoinPathsPlainGlobDir(a: string, b: string)
    requires IsPlainPath(a) && IsPlainPath(b)
    ensures JoinPaths([a, "**", b + "/"]) == a + "/**/" + b + "/"
  {
    PlainNonEmpty(a);
    JoinGlob(a, b + "/");
    PlainGlob(a, b);
    var c := a + "/**/" + b;
    NormalizePlain(c);
    assert a + "/**/" + (b + "/") == c + "/";
  }

  lemma PlainNonEmpty(q: string)
    requires IsPlainPath(q)
    ensures q != ""
  {
    SplitEnds(q, '/');
  }

  // An empty last argument is dropped: path.posix.join(a, '**', '') is a followed by the glob segment.
  lemma JoinPathsGlobEmpty(a: string)
    requires IsPlainPath(a)
    ensures JoinPaths([a, "**", ""]) == a + "/**"
  {
    NormalizePlain(a);
    DropTrailingEmptyArg(a, "**");
    assert Join([a, "**"], '/') == a + "/" + "**" == a + "/**";
    PlainSegmentIsPlainPath("**");
    PlainConcat(a, "**");
    NormalizePlain(a + "/" + "**");
  }

  lemma DropTrailingEmptyArg(a: string, m: string)
    requires a != "" && m != ""
    ensures NonEmptyArgs([a, m, ""]) == [a, m]
  {
    assert [a, m, ""][1..] == [m, ""];
    assert [m, ""][1..] == [""];
    assert NonEmptyArgs([""]) == [];
  }
}

=== FILE: seqs.dfy ===
/**
 * `Array.prototype.filter` and the facts about it the table's derived values
 * rest on: what survives, in which order, and how a count moves when one
 * element changes its verdict.
 */
module Seqs {

  /** No element occurs twice. */
  predicate Distinct<T(==)>(xs: seq<T>) {
    forall i, j :: 0 <= i < j < |xs| ==> xs[i] != xs[j]
  }

  /** `a` is `b` with some elements left out, the rest in their original order. */
  predicate IsSubsequence<T(==)>(a: seq<T>, b: seq<T>)
    decreases |b|
  {
    if a == [] then true
    else if b == [] then false
    else
      (a[|a| - 1] == b[|b| - 1] && IsSubsequence(a[..|a| - 1], b[..|b| - 1]))
      || IsSubsequence(a, b[..|b| - 1])
  }

  /** `xs.filter(p)`: the elements that satisfy `p`, in order. */
  function Filter<T(!new)>(xs: seq<T>, p: T -> bool): (r: seq<T>)
    ensures |r| <= |xs|
  {
    if xs == [] then []
    else
      var last := xs[|xs| - 1];
      Filter(xs[..|xs| - 1], p) + (if p(last) then [last] else [])
  }

  /** What `filter` keeps: exactly the elements that pass. */
  lemma {:induction false} FilterMembers<T(!new)>(xs: seq<T>, p: T -> bool)
    ensures forall x :: x in Filter(xs, p) <==> x in xs && p(x)
  {
    if xs != [] {
      var init, last := xs[..|xs| - 1], xs[|xs| - 1];
      FilterMembers(init, p);
      assert xs == init + [last];
    }
  }

  lemma FilterSnoc<T(!new)>(xs: seq<T>, x: T, p: T -> bool)
    ensures Filter(xs + [x], p) == Filter(xs, p) + (if p(x) then [x] else [])
  {
    assert (xs + [x])[..|xs|] == xs;
  }

  /** What `filter` keeps is a subsequence of its input. */
  lemma {:induction false} FilterSubsequence<T(!new)>(xs: seq<T>, p: T -> bool)
    ensures IsSubsequence(Filter(xs, p), xs)
  {
    if xs != [] {
      var init, last := xs[..|xs| - 1], xs[|xs| - 1];
      FilterSubsequence(init, p);
      FilterSnoc(init, last, p);
      assert init + [last] == xs;
      if p(last) {
        SubsequenceSnocBoth(Filter(init, p), init, last);
      } else {
        assert Filter(xs, p) == Filter(init, p);
        SubsequenceExtend(Filter(init, p), init, last);
      }
    }
  }

  lemma SubsequenceSnocBoth<T>(a: seq<T>, b: seq<T>, x: T)
    requires IsSubsequence(a, b)
    ensures IsSubsequence(a + [x], b + [x])
  {
    assert (a + [x])[..|a|] == a;
    assert (b + [x])[..|b|] == b;
  }

  /** Every sequence is a subsequence of itself. */
  lemma {:induction false} SubsequenceOfSelf<T>(a: seq<T>)
    ensures IsSubsequence(a, a)
  {
    if a != [] {
      SubsequenceOfSelf(a[..|a| - 1]);
    }
  }

  lemma {:induction false} SubsequenceExtend<T>(a: seq<T>, b: seq<T>, x: T)
    requires IsSubsequence(a, b)
    ensures IsSubsequence(a, b + [x])
  {
    assert (b + [x])[..|b|] == b;
  }

  /** A subsequence as long as the whole is the whole. */
  lemma {:induction false} SubsequenceFullLength<T>(a: seq<T>, b: seq<T>)
    requires IsSubsequence(a, b) && |a| >= |b|
    ensures a == b
  {
    if a != [] {
      assert b != [];
      var a', b' := a[..|a| - 1], b[..|b| - 1];
      if IsSubsequence(a, b') {
        SubsequenceLength(a, b');
        assert false;
      }
      SubsequenceFullLength(a', b');
      assert a == a' + [a[|a| - 1]];
      assert b == b' + [b[|b| - 1]];
    }
  }

  lemma {:induction false} SubsequenceLength<T>(a: seq<T>, b: seq<T>)
    requires IsSubsequence(a, b)
    ensures |a| <= |b|
  {
    if a != [] {
      if a[|a| - 1] == b[|b| - 1] && IsSubsequence(a[..|a| - 1], b[..|b| - 1]) {
        SubsequenceLength(a[..|a| - 1], b[..|b| - 1]);
      } else {
        SubsequenceLength(a, b[..|b| - 1]);
      }
    }
  }

  /** `filter` keeps everything exactly when every element passes. */
  lemma {:induction false} FilterKeepsAll<T(!new)>(xs: seq<T>, p: T -> bool)
    ensures |Filter(xs, p)| == |xs| <==> forall i :: 0 <= i < |xs| ==> p(xs[i])
  {
    if xs != [] {
      var init, last := xs[..|xs| - 1], xs[|xs| - 1];
      FilterKeepsAll(init, p);
      if forall i :: 0 <= i < |xs| ==> p(xs[i]) {
        assert forall i :: 0 <= i < |init| ==> p(init[i]) by {
          forall i | 0 <= i < |init| ensures p(init[i]) {
            assert init[i] == xs[i];
          }
        }
      } else if p(last) {
        var i :| 0 <= i < |xs| && !p(xs[i]);
        assert i < |init| && init[i] == xs[i];
      }
    }
  }

  /** Predicates that agree on every element filter alike. */
  lemma {:induction false} FilterAlike<T(!new)>(xs: seq<T>, p: T -> bool, q: T -> bool)
    requires forall i :: 0 <= i < |xs| ==> p(xs[i]) == q(xs[i])
    ensures Filter(xs, p) == Filter(xs, q)
  {
    if xs != [] {
      var init := xs[..|xs| - 1];
      assert forall i :: 0 <= i < |init| ==> init[i] == xs[i];
      FilterAlike(init, p, q);
    }
  }

  /**
   * When exactly one element `t` of a duplicate-free sequence changes its
   * verdict, the filtered count moves by one, up if `t` now passes.
   */
  lemma {:induction false} FilterToggle<T(!new)>(xs: seq<T>, p: T -> bool, q: T -> bool, t: T)
    requires Distinct(xs) && t in xs
    requires forall i :: 0 <= i < |xs| && xs[i] != t ==> p(xs[i]) == q(xs[i])
    requires q(t) == !p(t)
    ensures |Filter(xs, q)| == |Filter(xs, p)| + (if q(t) then 1 else -1)
  {
    var init, last := xs[..|xs| - 1], xs[|xs| - 1];
    assert forall i :: 0 <= i < |init| ==> init[i] == xs[i];
    if last == t {
      forall i | 0 <= i < |init|
        ensures init[i] != t
      {
        assert xs[i] != xs[|xs| - 1];
      }
      FilterAlike(init, p, q);
    } else {
      assert t in init;
      FilterToggle(init, p, q, t);
    }
  }
}

=== FILE: strings.dfy ===
/**
 * The few JavaScript string operations the gitignore expander relies on:
 * `trim`, `split` on a single character, `Array.prototype.join` and the
 * prefix/suffix tests. JavaScript strings become Dafny strings of Unicode
 * scalar values; every operation here only inspects ASCII markers and the
 * ECMAScript whitespace set.
 */
module Strings {

  /** `WhiteSpace` and `LineTerminator` of ECMAScript, the set `String.prototype.trim` removes. */
  predicate IsJsWhitespace(c: char) {
    var n := c as int;
    n == 0x09 || n == 0x0A || n == 0x0B || n == 0x0C || n == 0x0D || n == 0x20
    || n == 0xA0 || n == 0x1680 || (0x2000 <= n <= 0x200A)
    || n == 0x2028 || n == 0x2029 || n == 0x202F || n == 0x205F
    || n == 0x3000 || n == 0xFEFF
  }

  predicate AllWhitespace(s: string) {
    forall i :: 0 <= i < |s| ==> IsJsWhitespace(s[i])
  }

  /** Neither end of `s` is whitespace (vacuously true of the empty string). */
  predicate IsTrimmed(s: string) {
    |s| == 0 || (!IsJsWhitespace(s[0]) && !IsJsWhitespace(s[|s| - 1]))
  }

  predicate StartsWith(s: string, prefix: string) {
    |prefix| <= |s| && s[..|prefix|] == prefix
  }

  predicate EndsWith(s: string, suffix: string) {
    |suffix| <= |s| && s[|s| - |suffix|..] == suffix
  }

  /** `s.startsWith(c)` for a one-character `c`. */
  predicate StartsWithChar(s: string, c: char) {
    |s| > 0 && s[0] == c
  }

  /** `s.endsWith(c)` for a one-character `c`. */
  predicate EndsWithChar(s: string, c: char) {
    |s| > 0 && s[|s| - 1] == c
  }

  /** The number of whitespace characters `s` starts with. */
  function LeadingBlank(s: string): (n: nat)
    ensures n <= |s|
    ensures n == |s| || !IsJsWhitespace(s[n])
  {
    if |s| > 0 && IsJsWhitespace(s[0]) then 1 + LeadingBlank(s[1..]) else 0
  }

  /** Everything before `LeadingBlank(s)` is whitespace. */
  lemma {:induction false} LeadingBlankIsBlank(s: string)
    ensures forall i :: 0 <= i < LeadingBlank(s) ==> IsJsWhitespace(s[i])
  {
    if |s| > 0 && IsJsWhitespace(s[0]) {
      LeadingBlankIsBlank(s[1..]);
      assert forall i :: 1 <= i < LeadingBlank(s) ==> s[i] == s[1..][i - 1];
    }
  }

  /** Where the run of whitespace `s` ends with begins. */
  function TrailingBlankStart(s: string): (n: nat)
    ensures n <= |s|
    ensures n == 0 || !IsJsWhitespace(s[n - 1])
  {
    if |s| > 0 && IsJsWhitespace(s[|s| - 1]) then TrailingBlankStart(s[..|s| - 1]) else |s|
  }

  /** Everything from `TrailingBlankStart(s)` on is whitespace. */
  lemma {:induction false} TrailingBlankIsBlank(s: string)
    ensures forall i :: TrailingBlankStart(s) <= i < |s| ==> IsJsWhitespace(s[i])
  {
    if |s| > 0 && IsJsWhitespace(s[|s| - 1]) {
      TrailingBlankIsBlank(s[..|s| - 1]);
    }
  }

  /**
   * `String.prototype.trim`: `s` without its leading and trailing whitespace.
   * Neither end of the result is whitespace; `TrimIsSlice` and `TrimBlank`
   * say where it lies in `s` and when it is empty.
   */
  function Trim(s: string): (r: string)
    ensures IsTrimmed(r)
    ensures |r| <= |s|
  {
    var i := LeadingBlank(s);
    if i == |s| then
      ""
    else
      var j := TrailingBlankStart(s);
      TrailingBlankIsBlank(s);
      assert i < j;
      s[i..j]
  }

  /** The trimmed text is the slice of `s` after its leading whitespace, and only whitespace follows it. */
  lemma TrimIsSlice(s: string)
    ensures var i, r := LeadingBlank(s), Trim(s);
      && i + |r| <= |s| && r == s[i..i + |r|]
      && (forall k :: i + |r| <= k < |s| ==> IsJsWhitespace(s[k]))
  {
    var i := LeadingBlank(s);
    TrailingBlankIsBlank(s);
    if i < |s| {
      var j := TrailingBlankStart(s);
      assert i < j;
    }
  }

  /** Trimming leaves nothing exactly when everything is whitespace. */
  lemma TrimBlank(s: string)
    ensures |Trim(s)| == 0 <==> AllWhitespace(s)
  {
    var i := LeadingBlank(s);
    LeadingBlankIsBlank(s);
    TrailingBlankIsBlank(s);
    if i < |s| {
      var j := TrailingBlankStart(s);
      assert i < j;
      assert !IsJsWhitespace(s[i]);
    }
  }

  /** Dropping one trailing whitespace character does not change the trimmed text. */
  lemma TrimIgnoresTrailingBlank(p: string)
    requires |p| > 0 && IsJsWhitespace(p[|p| - 1])
    ensures Trim(p[..|p| - 1]) == Trim(p)
  {
    var q := p[..|p| - 1];
    LeadingBlankDropLast(p);
    TrailingBlankIsBlank(p);
    assert TrailingBlankStart(p) == TrailingBlankStart(q);
    if LeadingBlank(p) < |p| {
      assert q[LeadingBlank(p)..TrailingBlankStart(p)] == p[LeadingBlank(p)..TrailingBlankStart(p)];
    }
  }

  lemma {:induction false} LeadingBlankDropLast(p: string)
    requires |p| > 0
    ensures LeadingBlank(p[..|p| - 1]) == (if LeadingBlank(p) == |p| then |p| - 1 else LeadingBlank(p))
  {
    if |p| > 1 && IsJsWhitespace(p[0]) {
      LeadingBlankDropLast(p[1..]);
      assert p[..|p| - 1][1..] == p[1..][..|p[1..]| - 1];
    }
  }

  /** Every character equal to `a` replaced by `b`. */
  function ReplaceChar(s: string, a: char, b: char): (r: string)
    ensures |r| == |s|
    ensures forall i :: 0 <= i < |s| ==> r[i] == (if s[i] == a then b else s[i])
  {
    if |s| == 0 then "" else [if s[0] == a then b else s[0]] + ReplaceChar(s[1..], a, b)
  }

  /** `Array.prototype.join(d)` with a one-character separator. */
  function Join(parts: seq<string>, d: char): string
  {
    if |parts| == 0 then ""
    else if |parts| == 1 then parts[0]
    else parts[0] + [d] + Join(parts[1..], d)
  }

  /**
   * `String.prototype.split(d)` with a one-character separator: the pieces
   * between separators, so there is always at least one piece and joining
   * them back with `d` gives `s`.
   */
  function Split(s: string, d: char): (r: seq<string>)
    ensures |r| >= 1
    ensures forall k :: 0 <= k < |r| ==> d !in r[k]
    ensures Join(r, d) == s
  {
    if |s| == 0 then [""]
    else
      var rest := Split(s[1..], d);
      if s[0] == d then
        assert s == [d] + Join(rest, d);
        [""] + rest
      else
        var r := [[s[0]] + rest[0]] + rest[1..];
        assert r[1..] == rest[1..];
        assert Join(r, d) == s by {
          if |rest| == 1 {
          } else {
            assert Join(rest, d) == rest[0] + [d] + Join(rest[1..], d);
          }
        }
        r
  }

  lemma {:induction false} SplitNoSeparator(s: string, d: char)
    requires d !in s
    ensures Split(s, d) == [s]
  {
    if |s| > 0 {
      assert d !in s[1..];
      SplitNoSeparator(s[1..], d);
      assert [s[0]] + s[1..] == s;
    }
  }

  /** Splitting distributes over a separator placed between two strings. */
  lemma {:induction false} SplitConcat(x: string, y: string, d: char)
    ensures Split(x + [d] + y, d) == Split(x, d) + Split(y, d)
  {
    if |x| == 0 {
      assert x + [d] + y == [d] + y;
      assert ([d] + y)[1..] == y;
    } else {
      var x' := x[1..];
      assert (x + [d] + y)[1..] == x' + [d] + y;
      assert (x + [d] + y)[0] == x[0];
      SplitConcat(x', y, d);
    }
  }

  /** The other half of the round trip: pieces without separators come back from `Split`. */
  lemma {:induction false} SplitJoin(parts: seq<string>, d: char)
    requires |parts| >= 1
    requires forall k :: 0 <= k < |parts| ==> d !in parts[k]
    ensures Split(Join(parts, d), d) == parts
  {
    if |parts| == 1 {
      SplitNoSeparator(parts[0], d);
    } else {
      SplitJoin(parts[1..], d);
      SplitConcat(parts[0], Join(parts[1..], d), d);
      SplitNoSeparator(parts[0], d);
      assert [parts[0]] + parts[1..] == parts;
    }
  }

  /** Splitting on `a` and joining with `b` is replacing every `a` by `b`. */
  lemma {:induction false} JoinSplitIsReplace(s: string, a: char, b: char)
    ensures Join(Split(s, a), b) == ReplaceChar(s, a, b)
  {
    if |s| > 0 {
      var rest := Split(s[1..], a);
      var c := if s[0] == a then b else s[0];
      assert ReplaceChar(s, a, b) == [c] + ReplaceChar(s[1..], a, b);
      JoinSplitIsReplace(s[1..], a, b);
      JoinConsFirst(s[0], a, b, rest);
    }
  }

  /** How one more leading character changes the pieces and their re-join. */
  lemma JoinConsFirst(x: char, a: char, b: char, rest: seq<string>)
    requires |rest| >= 1
    requires rest == Split(Join(rest, a), a)
    ensures Join(Split([x] + Join(rest, a), a), b) == [if x == a then b else x] + Join(rest, b)
  {
    var s := [x] + Join(rest, a);
    assert s[1..] == Join(rest, a);
    if x == a {
      assert Split(s, a) == [""] + rest;
      assert ([""] + rest)[1..] == rest;
    } else {
      var r := [[x] + rest[0]] + rest[1..];
      assert Split(s, a) == r;
      assert r[1..] == rest[1..];
      if |rest| > 1 {
        assert Join(rest, b) == rest[0] + [b] + Join(rest[1..], b);
      }
    }
  }
}
